=== FILE: README.md ===
# URI scheme validator of SnPowerShell's `HtmlUtils`, in Dafny

This project models the URI scheme validator of the `HtmlUtils` library. It has two parts.

- **`UriSchemeTable`** is the registry of schemes. It is an ordered table of `(ID, Value)` rows:
  - the constructor seeds ten built-in schemes, with IDs 0 to 9;
  - IDs come from an auto-increment column;
  - the built-in rows cannot be deleted, and the table cannot be cleared.
- **`UriParserDataSet`** holds the validation state. It has six fields:
  - `CurrentSchemaValue`, the scheme text the host typed;
  - `SchemeErrorMessage` and `SchemeIsValid`, the verdict;
  - `IsRelative`;
  - `SelectedSchemaValue` and `SelectedSchemaId`, the registry row chosen for the text.

  Every setter re-derives the other fields. It does this through lazy getters and through a notification handler (`RaisePropertyChanged`) that calls the setters again.

The model is functional. The registry is an immutable sequence of rows. The validator is a datatype of fields, transformed by pure functions. It is built in three layers.

1. **`Propagation`** transcribes the setters and the handler branch for branch.
   - Lazy getters are reads that change the state.
   - Re-entrant calls are explicit nested calls, bounded by a call-depth budget.
2. **`Settled`** gives each setter as one closed-form transition, with contracts. Examples: "the first row matching the trimmed text is selected", "the message is the one derived from the final text".
3. **`Equivalence`** proves that the two layers agree on every consistent state once the budget is at least `MaxDepth` (8). So the notifications always die out, and the contracts of `Settled` describe what the C# setters do.

`Validator` adds the host's view:
- the events the host can cause (setters, getter reads, registry edits);
- an invariant that holds after construction and after any sequence of events.

`Findings` proves three places where the code does not keep its own promise. Each one is proved by a concrete state. Each also gets a corrected definition with the intended property proved.

Module layout:
- `optional.dfy`: `Option` (C# `null`) and `Result` (a throwing operation).
- `text.dfy`: white space and `Trim`, ASCII case folding (the model of `InvariantCultureIgnoreCase`), and the scheme grammar that `Uri.CheckSchemeName` checks, from section 3.1 of RFC 3986: `ALPHA *( ALPHA / DIGIT / "+" / "-" / "." )`.
- `scheme_table.dfy`: `UriSchemeTable`.
- `parser_state.dfy`: the fields, lazy getters and invariants of `UriParserDataSet`.
- `propagation.dfy`: the setters and `RaisePropertyChanged` as written.
- `settled.dfy`: the closed-form transitions.
- `equivalence.dfy`: the proofs that the two agree.
- `validator.dfy`: host events and reachable states.
- `findings.dfy`: the three discrepancies and their corrections.

## Model

| member | source | states |
|---|---|---|
| Text.TrimCutsBlankEnds | src/HtmlUtils/UriParserDataSet.cs:95 | `Trim` returns a contiguous piece of the input with only a blank prefix and a blank suffix cut off, leaves no white space at either end, and is empty exactly when the input is blank |
| Text.TrimIdempotent | src/HtmlUtils/UriParserDataSet.cs:204 | trimming an already trimmed text changes nothing |
| Text.FoldNormalizes | src/HtmlUtils/UriParserDataSet.cs:98 | the folded text has no upper-case ASCII letters, folds to itself and is equal to the input up to case, so it is the one representative every comparison goes through |
| Text.EqualsIgnoreCaseLength | src/HtmlUtils/UriParserDataSet.cs:190 | texts equal up to case have the same length |
| Text.IsSchemeName | src/HtmlUtils/UriParserDataSet.cs:108 | the character scan accepts a text exactly when it is a letter followed by letters, digits, `+`, `-` or `.` |
| Text.SchemeNameIgnoresCase | src/HtmlUtils/UriParserDataSet.cs:108 | two texts equal up to case are both well-formed scheme names or both not, so re-casing a text to a registry spelling never changes the verdict |
| Text.SchemeNameIsTrimmed | src/HtmlUtils/UriParserDataSet.cs:123 | a well-formed scheme name is non-blank and is its own trim |
| Text.PaddedTextFailsGrammar | src/HtmlUtils/UriParserDataSet.cs:108 | the grammar runs on the stored, untrimmed text, so a text with surrounding white space is always reported invalid even when its trim names a registry row |
| SchemeTable.Insert | src/HtmlUtils/UriSchemeTable.cs:51-53 | adding a row appends it after the existing rows with the next auto-increment ID, larger than every ID before it, and keeps the table well formed |
| SchemeTable.InsertAll | src/HtmlUtils/UriSchemeTable.cs:37-56 | inserting texts one by one leaves the earlier rows in place and appends row `i` with ID `nextId + i` and the `i`-th text |
| SchemeTable.SeedingInsertsInOrder | src/HtmlUtils/UriSchemeTable.cs:37-57 | the constructor's insertion loop yields the closed-form seeded table, with every inserted row recorded as known |
| SchemeTable.Create | src/HtmlUtils/UriSchemeTable.cs:24-57 | construction yields exactly ten rows, row `i` having ID `i` and the `i`-th of http, https, file, net.pipe, net.tcp, ftp, nntp, mailto, news, gopher; all are known rows, the next ID is 10 and the table is well formed |
| SchemeTable.SeededTextsTrimmed | src/HtmlUtils/UriSchemeTable.cs:39-48 | the built-in scheme texts are non-empty and carry no surrounding white space |
| SchemeTable.Add | src/HtmlUtils/UriSchemeTable.cs:33 | adding any text succeeds, duplicates included, and appends one row with a fresh, larger ID without touching the others |
| SchemeTable.FirstByValue | src/HtmlUtils/UriParserDataSet.cs:190-193 | a lookup by text returns the first row in row order whose text equals the key up to case, and returns nothing only when no row matches |
| SchemeTable.FirstValueIndex | src/HtmlUtils/UriParserDataSet.cs:205-209 | the index found is the first row in row order whose folded text equals the key |
| SchemeTable.FirstById | src/HtmlUtils/UriParserDataSet.cs:252-255 | a lookup by ID returns a row with that ID, and nothing only when no row has it |
| SchemeTable.FindOwnId | src/HtmlUtils/UriSchemeTable.cs:36 | with increasing IDs, looking up a row's own ID finds that very row |
| SchemeTable.IdsIdentifyRows | src/HtmlUtils/UriSchemeTable.cs:28 | two different rows of a well-formed table never share an ID |
| SchemeTable.FirstMatchIsStable | src/HtmlUtils/UriParserDataSet.cs:190-195 | looking up a row's text always finds a row, and looking up the found row's own text finds it again |
| SchemeTable.LookupIgnoresCase | src/HtmlUtils/UriParserDataSet.cs:98 | lookups by texts that are equal up to case find the same row |
| SchemeTable.Delete | src/HtmlUtils/UriSchemeTable.cs:82-87 | deleting fails exactly when the ID names no row or a known row, failing with the known-rows error in the latter case; otherwise exactly the rows with other IDs remain, one fewer than before, and the table stays well formed with its counter and known rows unchanged |
| SchemeTable.RemoveAtKeepsOthers | src/HtmlUtils/UriSchemeTable.cs:86 | removing one row keeps every other row, keeps IDs increasing, and removes nothing else |
| SchemeTable.RefusedOpsChangeNothing | src/HtmlUtils/UriSchemeTable.cs:94-97 | clearing the table and assigning a cell (both columns are read-only, line 33) are refused and leave the table exactly as it was; assigning a cell of an existing row fails because the column is read-only |
| SchemeTable.AllSchemes | src/HtmlUtils/UriSchemeTable.cs:104 | on a well-formed table the rows listed have increasing IDs and include every built-in row |
| SchemeTable.AllSchemesInInsertionOrder | src/HtmlUtils/UriSchemeTable.cs:104 | the listing after inserting texts is the listing before, followed by the new rows in insertion order with consecutive fresh IDs |
| SchemeTable.ApplyKeepsRows | src/HtmlUtils/UriSchemeTable.cs:82-97 | any host operation keeps the table well formed and the known rows; every old row survives unless it is the one deleted; every row with an old ID is an old row, unchanged |
| SchemeTable.BuiltInsPersist | src/HtmlUtils/UriSchemeTable.cs:82-97 | after any sequence of host operations every known (built-in) row is still in the table |
| SchemeTable.DuplicateTextShadowed | src/HtmlUtils/UriSchemeTable.cs:33 | a text already present up to case can be added again, and a lookup by that text still finds the earlier row, whose ID differs from the new one |
| ParserState.DerivedMessage | src/HtmlUtils/UriParserDataSet.cs:119-123 | the derived message is empty exactly when the text is blank and the URI is relative, or the text is non-blank and well formed; it is always "", "Scheme not provided." or "Invalid URI scheme" |
| ParserState.MessageReadIsStable | src/HtmlUtils/UriParserDataSet.cs:115-127 | the message getter caches what it returns: a second read returns the same message and changes nothing, a read with a cached message changes nothing at all, and a read never touches the text, flags or selection |
| ParserState.ResolveIsIdempotent | src/HtmlUtils/UriParserDataSet.cs:187-199 | the lazy selection is resolved at most once: resolving an already resolved state changes nothing, so both selection getters agree afterwards |
| Propagation.SetSchemeErrorMessage | src/HtmlUtils/UriParserDataSet.cs:128-146 | the message setter stores "" for blank input and the trim otherwise, and assigns `SchemeIsValid` ("message empty") only when the stored message differs from what the getter returned before; nothing else changes |
| Propagation.StoresMessageAsGiven | src/HtmlUtils/UriParserDataSet.cs:136-141 | an empty or trimmed non-blank message is stored unchanged |
| Propagation.SetIsRelative | src/HtmlUtils/UriParserDataSet.cs:169-181 | the flag takes the new value; an unchanged value changes nothing, and a changed one sets the message derived under the new flag |
| Propagation.SetCurrentSchemaValue | src/HtmlUtils/UriParserDataSet.cs:79-111 | the text setter and everything it calls never changes the registry and never makes the URI relative |
| Propagation.SetSelectedSchemaId | src/HtmlUtils/UriParserDataSet.cs:247-281 | the ID setter and its notifications never change the registry and never make the URI relative |
| Propagation.SetSelectedSchemaValue | src/HtmlUtils/UriParserDataSet.cs:202-226 | the selected-text setter and its notifications never change the registry and never make the URI relative |
| Propagation.RaisePropertyChanged | src/HtmlUtils/UriParserDataSet.cs:350-377 | the handler's two selection branches never change the registry and never make the URI relative |
| Propagation.Construct | src/HtmlUtils/UriParserDataSet.cs:286-297 | construction starts from the seeded registry and never makes the URI relative |
| Settled.Canonical | src/HtmlUtils/UriParserDataSet.cs:350-355 | for every row, the row a text notification moves the selection to is in the table, equals it up to case, and is the first row with that text |
| Settled.Deselect | src/HtmlUtils/UriParserDataSet.cs:261-279 | deselecting keeps consistency; with nothing selected it clears the fields; otherwise it ends with the ID of the row matching the trimmed current text, re-selected through the lazy getter, and the text may become that row's text, which equals the trimmed old text up to case, with the message re-derived |
| Settled.SelectRow | src/HtmlUtils/UriParserDataSet.cs:250-260 | choosing an existing row selects a row equal to it up to case; if another row ends selected, or a row other than this one was selected before, the text takes the selected row's spelling; otherwise the text is kept or re-stored |
| Settled.SelectById | src/HtmlUtils/UriParserDataSet.cs:247-281 | `SelectedSchemaId = id` keeps the invariant; an ID naming a row ends with an ID selected whose selected text equals that row's up to case; when an ID other than the one selected before names a row, the text takes the selected row's spelling; a null or unknown ID is exactly `Deselect`; the text is either the old one or the selected text |
| Settled.SelectByValue | src/HtmlUtils/UriParserDataSet.cs:202-226 | `SelectedSchemaValue = v` selects the first row matching the trimmed `v`; the text takes that row's spelling exactly when a different ID was selected before, and is kept otherwise; with no match it deselects |
| Settled.SetTextFinalText | src/HtmlUtils/UriParserDataSet.cs:89-101 | for a changed non-blank value, the final text is the value as given unless the first row matching its trim has an ID other than the one selected before; then it is that row's spelling |
| Settled.SetText | src/HtmlUtils/UriParserDataSet.cs:79-111 | `CurrentSchemaValue = v`: blank input stores "" and clears the selection; the same text changes nothing; otherwise the ID of the first row matching the trimmed text is selected, the text is stored verbatim or takes that row's spelling, and the message is derived from the final text |
| Settled.SelectFirstMatch | src/HtmlUtils/UriParserDataSet.cs:95-99 | selecting by the ID found for the trimmed text ends with exactly that row selected, or nothing selected and the text kept |
| Settled.StoredOnce | src/HtmlUtils/UriParserDataSet.cs:101-110 | running the message setter for the final text after the selection changes is the same as running it once against the message cached before |
| Settled.Construct | src/HtmlUtils/UriParserDataSet.cs:294-296 | the constructed object satisfies the invariant over the seeded registry; a non-blank scheme selects the row matching its trim, and a blank one leaves "" and nothing selected |
| Equivalence.MessageSetterStores | src/HtmlUtils/UriParserDataSet.cs:136-145 | assigning the message derived from the current text is exactly `StoreText` |
| Equivalence.RaiseValueSettled | src/HtmlUtils/UriParserDataSet.cs:350-355 | a text notification while a row that is the first with its text up to case is selected changes nothing |
| Equivalence.RaiseIdFollows | src/HtmlUtils/UriParserDataSet.cs:357-364 | an ID notification for a row that is the first with its text up to case makes the text follow that row |
| Equivalence.NotifySettles | src/HtmlUtils/UriParserDataSet.cs:276-279 | once a row that is the first with its text up to case is selected, the two notifications settle, moving the text only if the ID one is raised |
| Equivalence.RaiseValueOnShadowed | src/HtmlUtils/UriParserDataSet.cs:350-355 | a text notification while a later duplicate row is selected moves the selection and text to the first such row |
| Equivalence.RaiseIdOnShadowedOther | src/HtmlUtils/UriParserDataSet.cs:364 | an ID notification for a duplicate row whose text is not current ends with the first such row selected and its spelling stored |
| Equivalence.SelectIdFound | src/HtmlUtils/UriParserDataSet.cs:250-260 | with enough budget, setting the ID of an existing row equals `SelectRow` |
| Equivalence.SelectIdMissing | src/HtmlUtils/UriParserDataSet.cs:261-275 | with enough budget, setting a null or unknown ID equals `Deselect` |
| Equivalence.NotifyAfterClear | src/HtmlUtils/UriParserDataSet.cs:366-376 | the notifications raised by clearing the selection end in `Deselect`: if something was selected and a row matches the trimmed text, that row is selected again and the text follows it; otherwise the selection stays cleared |
| Equivalence.SetSelectedSchemaIdSettles | src/HtmlUtils/UriParserDataSet.cs:247-281 | for any budget of at least `MaxDepth`, the as-written ID setter equals `Settled.SelectById` on every consistent state |
| Equivalence.SelectValueFound | src/HtmlUtils/UriParserDataSet.cs:207-214 | the selected-text setter for a matching text selects the first match, and the text takes its spelling only when a different ID was selected before |
| Equivalence.SelectValueMissing | src/HtmlUtils/UriParserDataSet.cs:215-221 | the selected-text setter for an unmatched text equals `Deselect` |
| Equivalence.SetSelectedSchemaValueSettles | src/HtmlUtils/UriParserDataSet.cs:202-226 | for any budget of at least `MaxDepth`, the as-written selected-text setter equals `Settled.SelectByValue` |
| Equivalence.SetCurrentBlank | src/HtmlUtils/UriParserDataSet.cs:82-104 | assigning a blank text over a non-empty one clears the selection and stores "" with its message |
| Equivalence.SetCurrentOther | src/HtmlUtils/UriParserDataSet.cs:87-109 | assigning a new non-blank text selects by the ID of the row matching its trim and stores the final text's message |
| Equivalence.SetCurrentSchemaValueSettles | src/HtmlUtils/UriParserDataSet.cs:79-111 | for any budget of at least `MaxDepth`, the as-written text setter equals `Settled.SetText` |
| Equivalence.ConstructSettles | src/HtmlUtils/UriParserDataSet.cs:286-297 | the as-written constructor equals `Settled.Construct` |
| Validator.ReadSchemeErrorMessage | src/HtmlUtils/UriParserDataSet.cs:113-127 | in a reachable state the message read is the one derived from the current text, empty exactly for a well-formed non-blank text, and caching it keeps the invariant |
| Validator.ReadSelectedScheme | src/HtmlUtils/UriParserDataSet.cs:183-201 | reading the selection resolves an unset one from the trimmed text, keeping the invariant and changing nothing else |
| Validator.EditKeepsSchemesUsable | src/HtmlUtils/UriSchemeTable.cs:82-97 | host edits with non-empty trimmed texts keep the registry usable and its known rows |
| Validator.EditRegistry | src/HtmlUtils/UriParserDataSet.cs:282 | editing the registry through `UriSchemes` keeps the invariant and every built-in row, and changes nothing but the registry |
| Validator.Step | src/HtmlUtils/UriParserDataSet.cs:79-281 | every host event keeps the invariant and every built-in row |
| Validator.Run | src/HtmlUtils/UriParserDataSet.cs:67-282 | any sequence of host events keeps the invariant and the known rows |
| Validator.ReachableStates | src/HtmlUtils/UriParserDataSet.cs:283-297 | after construction and any events, the ten built-in rows are present, `IsRelative` is false, an ID is selected exactly with a non-empty selected text, and the message read is the one derived from the text |
| Findings.HttpIsRowZero | src/HtmlUtils/UriSchemeTable.cs:39 | looking up "http" in the seeded registry finds row 0 |
| Findings.NoBuiltInMatchesOneLetter | src/HtmlUtils/UriSchemeTable.cs:37-48 | no one-letter text names a built-in scheme |
| Findings.FirstReadFacts | src/HtmlUtils/UriParserDataSet.cs:71-76 | the constructor's first read of the text, on a usable registry, leaves "" as text, no cached message, the flag false, an empty selected text and no ID, and meets the invariant |
| Findings.EmptyMessageMeansWellFormed | src/HtmlUtils/UriParserDataSet.cs:119-123 | in every state meeting the invariant the message the getter returns is empty exactly when the current text is a well-formed scheme name |
| Findings.SetTextKeepsGrammar | src/HtmlUtils/UriParserDataSet.cs:87-108 | assigning a well-formed scheme name leaves a well-formed current text, even when it takes a registry row's spelling |
| Findings.ConstructSelects | src/HtmlUtils/UriParserDataSet.cs:294-296 | constructing with a non-blank scheme selects the ID of the built-in row matching its trim, keeps the scheme as text when no row matches, and otherwise leaves the scheme or that row's spelling |
| Findings.ConstructKeepsGrammar | src/HtmlUtils/UriParserDataSet.cs:296 | constructing with a well-formed scheme leaves a well-formed current text |
| Findings.ConstructNeverValid | src/HtmlUtils/UriParserDataSet.cs:139-145 | as written, the constructed object never has `SchemeIsValid` set, whatever the scheme |
| Findings.ValidSchemeReportedInvalid | src/HtmlUtils/UriParserDataSet.cs:139-145 | as written, for every well-formed scheme the constructed object reports an empty message with `SchemeIsValid` false |
| Findings.HttpReportedInvalid | src/HtmlUtils/UriParserDataSet.cs:139-145 | as written, constructing with "http" caches the message "" and leaves `SchemeIsValid` false |
| Findings.StoreTextFixed | src/HtmlUtils/UriParserDataSet.cs:128-146 | the corrected message setter assigns the flag whenever the stored message changes, so a state whose flag agreed with its message still agrees afterwards |
| Findings.SetTextFixed | src/HtmlUtils/UriParserDataSet.cs:79-111 | with the corrected message setter, the text setter differs from `SetText` only in the flag, and keeps the flag in agreement with the message |
| Findings.ConstructFixed | src/HtmlUtils/UriParserDataSet.cs:286-297 | the corrected constructor has `SchemeIsValid` exactly when the text is well formed, so it is true for every well-formed scheme |
| Findings.DeselectReselects | src/HtmlUtils/UriParserDataSet.cs:350-355 | as written, with a row selected whose text is the current text, `SelectedSchemaId = null` or an unknown ID changes nothing |
| Findings.DeselectAfterHttp | src/HtmlUtils/UriParserDataSet.cs:350-355 | as written, after constructing with "http", `SelectedSchemaId = null` leaves row 0 selected and the text "http" |
| Findings.DeselectFixed | src/HtmlUtils/UriParserDataSet.cs:366-376 | corrected deselection clears both selected fields, clears the text exactly when it mirrored the selected text, and keeps the invariant |
| Findings.PickKeepsTypedText | src/HtmlUtils/UriParserDataSet.cs:255-279 | as written, with nothing selected, choosing a row that is the first with its text up to case selects it and leaves the current text alone |
| Findings.PickAfterUnknownScheme | src/HtmlUtils/UriParserDataSet.cs:255-279 | as written, after constructing with "x", `SelectedSchemaId = 0` selects "http" but leaves the text "x" |
| Findings.PickRow | src/HtmlUtils/UriParserDataSet.cs:357-364 | corrected choice of a row selects the first row with its text up to case, makes the current text that row's spelling, and keeps the invariant, the flag's agreement and the text-matches-selection property |
| Findings.SelectByIdFixed | src/HtmlUtils/UriParserDataSet.cs:247-281 | the corrected ID setter keeps the corrected invariant; a known ID leaves a text equal to the row's up to case and mirrored as selected text, and a null or unknown ID is the corrected deselection |
| Findings.SelectByValueFixed | src/HtmlUtils/UriParserDataSet.cs:202-226 | the corrected selected-text setter selects the first match and takes its spelling, or deselects |
| Findings.StepFixed | src/HtmlUtils/UriParserDataSet.cs:79-281 | every host event on the corrected object keeps the corrected invariant |
| Findings.ValidityAlwaysAgrees | src/HtmlUtils/UriParserDataSet.cs:145 | on the corrected object, after any events, `SchemeIsValid` holds exactly when the message read is empty, which is exactly when the text is a well-formed scheme name |

## Left out

- The `UriBuilder`/`Uri` handling in the constructor (`UriParserDataSet.cs:288-293`) is .NET URI parsing. The builder's scheme string is a parameter of `Construct`.
- The `ExtendedProperties` helpers (`UriParserDataSet.cs:30-66`) are a property bag that mirrors the fields, and the fields are modelled directly. A getter consults the bag only while its field is still `null`. Each bag entry is written only after its field is set, and no field is set back to `null` afterwards, so a read never finds an entry there. The two fields the setters do reset to `null`, the selected text and ID, are not mirrored.
- The `CurrentSchemaValue`, `SchemeErrorMessage` and `IsRelative` branches of `RaisePropertyChanged` (`UriParserDataSet.cs:304-349`) are not modelled. The handler is only ever called with the two selection property names.
- The null tests on `x` and `y` in the handler (`UriParserDataSet.cs:369-372`) are always true, because the getters never return `null`.
- The `SchemeIsValid` getter's lazy branch (`UriParserDataSet.cs:152-153`) is not modelled, because the field starts `false` and is never `null`. The `IsRelative` getter's lazy branch (lines 165-166) is left out for the same reason.
- `OnRemoveColumn`, `OnColumnChanging` (whose check is commented out), `OnRemoveTable`, row states and `AcceptChanges` are `DataTable` plumbing. `UriSchemaRow.cs` only holds the two column accessors, folded into `Row`.
- The `try`/`finally` in the text setter (`UriParserDataSet.cs:96-110`) matters only if the ID setter throws. Nothing in the model throws there.
- `UriParserForm.cs` is a WinForms host that only constructs the object. The `SnWebServices` files are REST stubs and assembly metadata. Neither is part of the validator.
- Property-changed events to outside listeners are not modelled. The handler raises none for the host.
- Text.EqualsIgnoreCase: models `InvariantCultureIgnoreCase` as ASCII case folding, which is weaker than the linguistic comparison .NET performs. That comparison also ignores characters such as U+00AD (soft hyphen) and folds non-ASCII letters. So `CurrentSchemaValue = "http\u00AD"` selects row 0 in C# (`UriParserDataSet.cs:98`) and selects nothing in the model. The text, the selection and the message can all differ. For example, construct with "ftp" and then set `CurrentSchemaValue = "http\u00AD"`. C# finds row 0, the ID notification (`UriParserDataSet.cs:364`) re-cases the text to "http", and the message is empty. The model keeps the typed text, selects nothing and reports "Invalid URI scheme".
- IDs are C# `long` and are modelled as unbounded `int`. The auto-increment counter would need 2^63 insertions to wrap.
- Propagation.SetCurrentSchemaValue: the call-depth budget `fuel` is not in the C#. At zero budget a call does nothing. `Equivalence` proves that any budget of at least `MaxDepth` gives the settled result on every consistent state, so the bound never decides an outcome.
- Settled.SetText: requires `Consistent`, and so do `Settled.SelectById`, `Settled.SelectByValue` and the equivalence lemmas. This means that every registry text is non-empty and already trimmed. The C# registry accepts any text. For a blank or padded host-added text, the re-selection in the handler could diverge from the closed forms, and those states are not characterised. `Validator.Admissible` restricts host-added rows accordingly, and the `Propagation` functions themselves have no such requirement.
- Propagation.SetSelectedSchemaValue: its own contract states only that the registry and the relative flag are kept. Its behaviour is stated through `Equivalence.SetSelectedSchemaValueSettles` and the contract of `Settled.SelectByValue`.
- Propagation.RaisePropertyChanged: its own contract states only that the registry and the relative flag are kept. What its two branches do is stated by `Equivalence.RaiseValueSettled`, `Equivalence.RaiseValueOnShadowed`, `Equivalence.RaiseIdFollows`, `Equivalence.RaiseIdOnShadowedOther` and `Equivalence.NotifySettles`.
- Propagation.Construct: its own contract states only the seeded registry and the relative flag. The resulting text and selection are stated through `Equivalence.ConstructSettles` and the contract of `Settled.Construct`.
- Propagation.SetSelectedSchemaId: like the other `Propagation` functions, its own contract states only that the registry and the relative flag are kept. Its behaviour is stated through `Equivalence.SetSelectedSchemaIdSettles` and the contracts of `Settled`.
- Validator.Step: reads of `CurrentSchemaValue` and `SchemeIsValid` are not events, because after construction they change nothing.

## Notes on the code

Four behaviours of the code are easy to misread. The model follows the code in each.

- **Scheme texts are not unique.** The constructor sets the unique flag on the `ID` column twice (`UriSchemeTable.cs:33`) and never on `Value`. So duplicates up to case can be added, and every lookup is "first match in row order" (`SchemeTable.DuplicateTextShadowed`).
- **The grammar sees the untrimmed text.** The grammar runs on the stored text, untrimmed (`UriParserDataSet.cs:108`), although the selection is looked up by the trimmed text (line 95). A padded text can therefore select a row and still be reported invalid (`Text.PaddedTextFailsGrammar`).
- **The no-op check is case-sensitive.** It compares the raw new text with the raw old one (`UriParserDataSet.cs:89`), so re-casing a text runs the whole setter.
- **An unknown ID is not an error.** `SelectedSchemaId` with an ID that names no row throws nothing: it clears the selection (`UriParserDataSet.cs:261-267`), and the notifications then re-select from the text (finding 2).

## Findings

| source | as written | input that shows it | evidently intended | confidence | as-written member | corrected member |
|---|---|---|---|---|---|---|
| src/HtmlUtils/UriParserDataSet.cs:139-145 | the message setter compares the new message with the getter's value, which the getter derives lazily from the text just stored, so on first assignment they are equal and `SchemeIsValid` keeps its initial `false` | `new UriParserDataSet(new UriBuilder("http://host"))`: message "", `SchemeIsValid` false | `SchemeIsValid` is true exactly when the message is empty | not executed | Findings.HttpReportedInvalid | Findings.ValidityAlwaysAgrees |
| src/HtmlUtils/UriParserDataSet.cs:350-355 | `SelectedSchemaId = null` first raises the text notification, whose read of `SelectedSchemaValue` goes through the lazy getter (lines 187-199) and re-selects the row matching the current text; the ID notification then copies that row back, so when the text matches a row, the clearing branch at lines 366-376 is never reached | construct with "http", then `SelectedSchemaId = null`: row 0 is still selected and the text is still "http" | the selection is cleared, and the text with it when it mirrored the selected text | not executed | Findings.DeselectAfterHttp | Findings.DeselectFixed |
| src/HtmlUtils/UriParserDataSet.cs:255-279 | the row's text is copied into `CurrentSchemaValue` only by the ID notification, which is raised only if an ID was selected before | construct with "x", then `SelectedSchemaId = 0`: "http" is selected, but the text stays "x" | choosing a row makes its text the current text | not executed | Findings.PickAfterUnknownScheme | Findings.PickRow |

=== FILE: equivalence.dfy ===
/**
 * The call-by-call transcription of the setters and their closed forms agree
 * on every consistent state once the call-depth budget is at least
 * `MaxDepth`: the notifications the setters raise always die out within
 * that many nested calls.
 */
module Equivalence {
  import opened Optional
  import opened Text
  import opened SchemeTable
  import opened ParserState
  import opened Propagation
  import opened Settled

  /** The deepest chain of nested setter and handler calls any setter starts. */
  const MaxDepth: nat := 8

  /** Re-selecting the row that is already selected raises nothing. */
  lemma SelectIdUnchanged(f: nat, s: State, row: Row)
    requires f >= 1 && IdsIncreasing(s.schemes.rows) && row in s.schemes.rows
    requires s.selectedValue == Some(row.value) && s.selectedId == Some(row.id)
    ensures SetSelectedSchemaId(f, s, Some(row.id)) == s
  {
    FindOwnId(s.schemes, row);
  }

  lemma SelectValueUnchanged(f: nat, s: State, k: Row, text: string)
    requires f >= 1 && FirstByValue(s.schemes, Trim(text)) == Some(k)
    requires s.selectedValue == Some(k.value) && s.selectedId == Some(k.id)
    ensures SetSelectedSchemaValue(f, s, Some(text)) == s
  {
  }

  /** A text notification about a first-of-its-text row changes nothing. */
  lemma RaiseValueSettled(f: nat, s: State, k: Row)
    requires f >= 2 && IdsIncreasing(s.schemes.rows) && k in s.schemes.rows
    requires FirstByValue(s.schemes, k.value) == Some(k)
    requires s.selectedValue == Some(k.value) && s.selectedId == Some(k.id)
    ensures RaisePropertyChanged(f, s, SelectedSchemaValueProperty) == s
  {
    SelectIdUnchanged(f - 1, s, k);
  }

  /** Assigning the message derived from the current text is `StoreText` in place. */
  lemma MessageSetterStores(s: State, m: string)
    requires m == DerivedMessage(s.current, s.isRelative)
    ensures SetSchemeErrorMessage(s, Some(m)) == StoreText(s, s.current)
  {
    var r := SetSchemeErrorMessage(s, Some(m));
    assert r.message == Some(m) by {
      MessagesAreTrimmed();
      StoresMessageAsGiven(s, m);
    }
    assert s.(current := s.current) == s;
  }

  /** Assigning the selected row's text to the current text, with that row selected. */
  lemma SetTextToSelected(f: nat, s: State, k: Row)
    requires f >= 2 && Consistent(s) && k in s.schemes.rows
    requires FirstByValue(s.schemes, k.value) == Some(k)
    requires s.selectedValue == Some(k.value) && s.selectedId == Some(k.id)
    ensures SetCurrentSchemaValue(f, s, Some(k.value)) == Follow(s, k)
  {
    RowTextUsable(s.schemes, k);
    TrimOfTrimmed(k.value);
    if s.current == k.value {
      UnfoldSetCurrentSame(f, s, k.value);
    } else {
      var s1 := s.(current := k.value);
      var m := DerivedMessage(k.value, false);
      assert SetSelectedSchemaId(f - 1, s1, IdOf(FirstByValue(s.schemes, Trim(k.value)))) == s1 by {
        SelectIdUnchanged(f - 1, s1, k);
      }
      assert SetCurrentSchemaValue(f, s, Some(k.value)) == SetSchemeErrorMessage(s1, Some(m)) by {
        UnfoldSetCurrentOther(f, s, k.value);
      }
      MessageSetterStores(s1, m);
      StoreTextReplacesText(s, k.value, k.value);
    }
  }

  /** An ID notification about a first-of-its-text row makes the text follow it. */
  lemma RaiseIdFollows(f: nat, s: State, k: Row)
    requires f >= 3 && Consistent(s) && k in s.schemes.rows
    requires FirstByValue(s.schemes, k.value) == Some(k)
    requires s.selectedValue == Some(k.value) && s.selectedId == Some(k.id)
    ensures RaisePropertyChanged(f, s, SelectedSchemaIdProperty) == Follow(s, k)
  {
    FindOwnId(s.schemes, k);
    assert GetSelectedSchemaId(s) == (s, Some(k.id));
    SetTextToSelected(f - 1, s, k);
    var s2 := Follow(s, k);
    RowTextUsable(s.schemes, k);
    TrimOfTrimmed(k.value);
    SelectValueUnchanged(f - 1, s2, k, k.value);
    calc {
      RaisePropertyChanged(f, s, SelectedSchemaIdProperty);
      SetSelectedSchemaValue(f - 1, SetCurrentSchemaValue(f - 1, s, Some(k.value)), Some(k.value));
      SetSelectedSchemaValue(f - 1, s2, Some(k.value));
    }
  }

  /** The ID setter for an existing row: select it, then notify. */
  lemma UnfoldSelectId(f: nat, s: State, row: Row)
    requires f >= 1 && FirstById(s.schemes, row.id) == Some(row)
    ensures SetSelectedSchemaId(f, s, Some(row.id)) ==
      Notify(f - 1, Select(s, row),
        s.selectedValue.Some? && s.selectedValue.value != row.value,
        s.selectedId.Some? && s.selectedId.value != row.id)
  {
  }

  /** The text setter for a text whose first match is `k`: select it, then notify. */
  lemma UnfoldSelectValue(f: nat, s: State, text: string, k: Row)
    requires f >= 1 && FirstByValue(s.schemes, Trim(text)) == Some(k)
    ensures SetSelectedSchemaValue(f, s, Some(text)) ==
      Notify(f - 1, Select(s, k),
        s.selectedValue.Some? && s.selectedValue.value != k.value,
        s.selectedId.Some? && s.selectedId.value != k.id)
  {
  }

  /** An ID notification while the row `row` is selected. */
  lemma UnfoldRaiseId(g: nat, s: State, row: Row)
    requires g >= 1 && s.selectedValue.Some? && s.selectedId == Some(row.id)
    requires FirstById(s.schemes, row.id) == Some(row)
    ensures RaisePropertyChanged(g, s, SelectedSchemaIdProperty) ==
      SetSelectedSchemaValue(g - 1, SetCurrentSchemaValue(g - 1, s, Some(row.value)), Some(row.value))
  {
    assert GetSelectedSchemaId(s) == (s, Some(row.id));
  }

  /** Assigning the current text its own value does nothing. */
  lemma UnfoldSetCurrentSame(f: nat, s: State, x: string)
    requires f >= 1 && !IsBlank(x) && s.current == x
    ensures SetCurrentSchemaValue(f, s, Some(x)) == s
  {
  }

  /** Assigning a different non-blank text: store, select by ID, set the message. */
  lemma UnfoldSetCurrentOther(f: nat, s: State, x: string)
    requires f >= 1 && !IsBlank(x) && s.current != x && !s.isRelative
    ensures var s2 := SetSelectedSchemaId(f - 1, s.(current := x), IdOf(FirstByValue(s.schemes, Trim(x))));
      SetCurrentSchemaValue(f, s, Some(x)) ==
        SetSchemeErrorMessage(s2, Some(if CheckSchemeName(s2.current) then "" else InvalidUriScheme))
  {
  }

  /**
   * Once a first-of-its-text row `k` is selected, any notifications settle
   * with the text following `k` if the ID one is raised.
   */
  lemma NotifySettles(f: nat, s: State, k: Row, valueChanged: bool, idChanged: bool)
    requires f >= 3 && Consistent(s) && k in s.schemes.rows
    requires FirstByValue(s.schemes, k.value) == Some(k)
    requires s.selectedValue == Some(k.value) && s.selectedId == Some(k.id)
    ensures Notify(f, s, valueChanged, idChanged) == if idChanged then Follow(s, k) else s
  {
    RaiseValueSettled(f, s, k);
    RaiseIdFollows(f, s, k);
  }

  /**
   * A text notification while a later row with the same text up to case is
   * selected: the selection moves to the first such row `k` and the text follows.
   */
  lemma RaiseValueOnShadowed(g: nat, s: State, row: Row, k: Row)
    requires g >= 5 && Consistent(s) && row in s.schemes.rows && row != k
    requires k == Canonical(s.schemes, row)
    requires s.selectedValue == Some(row.value) && s.selectedId == Some(row.id)
    ensures RaisePropertyChanged(g, s, SelectedSchemaValueProperty) == Follow(s, k)
  {
    var t := s.schemes;
    var sk := Select(s, k);
    var valueChanged := row.value != k.value;
    IdsIdentifyRows(t, row, k);
    assert RaisePropertyChanged(g, s, SelectedSchemaValueProperty) == SetSelectedSchemaId(g - 1, s, Some(k.id)) by {
      RaiseValueSelectsFirst(g, s, k);
    }
    assert SetSelectedSchemaId(g - 1, s, Some(k.id)) == Notify(g - 2, sk, valueChanged, true) by {
      FindOwnId(t, k);
      UnfoldSelectId(g - 1, s, k);
    }
    assert Notify(g - 2, sk, valueChanged, true) == Follow(sk, k) by {
      RowTextUsable(t, k);
      NotifySettles(g - 2, sk, k, valueChanged, true);
    }
    assert Follow(sk, k) == Follow(s, k);
  }

  /** A text notification while a text is selected selects the first row with that text. */
  lemma RaiseValueSelectsFirst(g: nat, s: State, k: Row)
    requires g >= 1 && s.selectedValue.Some? && FirstByValue(s.schemes, s.selectedValue.value) == Some(k)
    ensures RaisePropertyChanged(g, s, SelectedSchemaValueProperty) == SetSelectedSchemaId(g - 1, s, Some(k.id))
  {
    assert GetSelectedSchemaValue(s) == (s, s.selectedValue.value);
  }

  /** An ID notification for a shadowed row whose text is already current. */
  lemma RaiseIdOnShadowedCurrent(g: nat, s: State, row: Row, k: Row)
    requires g >= 5 && Consistent(s) && row in s.schemes.rows && row != k
    requires k == Canonical(s.schemes, row) && s.current == row.value
    requires s.selectedValue == Some(row.value) && s.selectedId == Some(row.id)
    ensures RaisePropertyChanged(g, s, SelectedSchemaIdProperty) == Follow(s, k)
  {
    var t := s.schemes;
    IdsIdentifyRows(t, row, k);
    RowTextUsable(t, row);
    RowTextUsable(t, k);
    var sk := Select(s, k);
    var valueChanged := row.value != k.value;
    assert RaisePropertyChanged(g, s, SelectedSchemaIdProperty) == SetSelectedSchemaValue(g - 1, s, Some(row.value)) by {
      FindOwnId(t, row);
      UnfoldRaiseId(g, s, row);
      UnfoldSetCurrentSame(g - 1, s, row.value);
    }
    assert SetSelectedSchemaValue(g - 1, s, Some(row.value)) == Notify(g - 2, sk, valueChanged, true) by {
      LookupTrimmedRow(t, row);
      UnfoldSelectValue(g - 1, s, row.value, k);
    }
    assert Notify(g - 2, sk, valueChanged, true) == Follow(sk, k) by {
      NotifySettles(g - 2, sk, k, valueChanged, true);
    }
  }

  /**
   * An ID notification for a shadowed row whose text is not current: the text
   * is first set to the row's own spelling, which re-selects `k`, whose ID
   * notification sets the text to `k`'s spelling.
   */
  lemma RaiseIdOnShadowedOther(g: nat, s: State, row: Row, k: Row)
    requires g >= 6 && Consistent(s) && row in s.schemes.rows && row != k
    requires k == Canonical(s.schemes, row) && s.current != row.value
    requires s.selectedValue == Some(row.value) && s.selectedId == Some(row.id)
    ensures RaisePropertyChanged(g, s, SelectedSchemaIdProperty) == StoreText(Select(s, k), k.value)
  {
    var t := s.schemes;
    var s2 := StoreText(Select(s, k), k.value);
    assert RaisePropertyChanged(g, s, SelectedSchemaIdProperty) ==
      SetSelectedSchemaValue(g - 1, SetCurrentSchemaValue(g - 1, s, Some(row.value)), Some(row.value)) by {
      FindOwnId(t, row);
      UnfoldRaiseId(g, s, row);
    }
    SetShadowedText(g - 1, s, row, k);
    assert SetSelectedSchemaValue(g - 1, s2, Some(row.value)) == s2 by {
      RowTextUsable(t, row);
      LookupTrimmedRow(t, row);
      SelectValueUnchanged(g - 1, s2, k, row.value);
    }
  }

  /**
   * Setting the text to a shadowed row's own spelling selects the first row
   * `k` with that text, whose ID notification stores `k`'s spelling.
   */
  lemma SetShadowedText(g: nat, s: State, row: Row, k: Row)
    requires g >= 5 && Consistent(s) && row in s.schemes.rows && row != k
    requires k == Canonical(s.schemes, row) && s.current != row.value
    requires s.selectedId == Some(row.id)
    ensures SetCurrentSchemaValue(g, s, Some(row.value)) == StoreText(Select(s, k), k.value)
  {
    var t := s.schemes;
    var s1 := s.(current := row.value);
    var s1c := Follow(Select(s1, k), k);
    RowTextUsable(t, row);
    RowTextUsable(t, k);
    TrimOfTrimmed(k.value);
    assert SetSelectedSchemaId(g - 1, s1, IdOf(FirstByValue(t, Trim(row.value)))) == s1c by {
      LookupTrimmedRow(t, row);
      ShadowedIdSelectsFirst(g - 1, s1, row, k);
    }
    assert SetCurrentSchemaValue(g, s, Some(row.value)) ==
      SetSchemeErrorMessage(s1c, Some(DerivedMessage(k.value, false))) by {
      UnfoldSetCurrentOther(g, s, row.value);
    }
    MessageSetterStores(s1c, DerivedMessage(k.value, false));
    StoreTextReplacesText(Select(s, k), row.value, k.value);
    StoreTextReplacesText(Select(s1, k), k.value, k.value);
  }

  /** Selecting by the ID of the first row `k` with a shadowed row's text. */
  lemma ShadowedIdSelectsFirst(g: nat, s1: State, row: Row, k: Row)
    requires g >= 4 && Consistent(s1) && row in s1.schemes.rows && row != k
    requires k == Canonical(s1.schemes, row) && s1.selectedId == Some(row.id)
    ensures SetSelectedSchemaId(g, s1, Some(k.id)) == Follow(Select(s1, k), k)
  {
    var t := s1.schemes;
    IdsIdentifyRows(t, row, k);
    FindOwnId(t, k);
    RowTextUsable(t, k);
    UnfoldSelectId(g, s1, k);
    NotifySettles(g - 1, Select(s1, k), k,
      s1.selectedValue.Some? && s1.selectedValue.value != k.value, true);
  }

  /**
   * Setting the ID of an existing row: every combination of changed text and
   * changed ID, for a row that is or is not the first with its text.
   */
  lemma SelectIdFound(f: nat, s: State, row: Row)
    requires f >= 7 && Consistent(s) && row in s.schemes.rows
    ensures SetSelectedSchemaId(f, s, Some(row.id)) == SelectRow(s, row)
  {
    var valueChanged := s.selectedValue.Some? && s.selectedValue.value != row.value;
    var idChanged := s.selectedId.Some? && s.selectedId.value != row.id;
    FindOwnId(s.schemes, row);
    UnfoldSelectId(f, s, row);
    NotifyAfterSelectRow(f - 1, s, row, valueChanged, idChanged);
  }

  /** The notifications the ID setter raises after selecting `row` settle to `SelectRow`. */
  lemma NotifyAfterSelectRow(f: nat, s: State, row: Row, valueChanged: bool, idChanged: bool)
    requires f >= 6 && Consistent(s) && row in s.schemes.rows
    requires valueChanged == (s.selectedValue.Some? && s.selectedValue.value != row.value)
    requires idChanged == (s.selectedId.Some? && s.selectedId.value != row.id)
    ensures Notify(f, Select(s, row), valueChanged, idChanged) == SelectRow(s, row)
  {
    var k := Canonical(s.schemes, row);
    if k == row {
      NotifyAfterSelect(f, s, k, valueChanged, idChanged);
    } else if valueChanged {
      ShadowedTextChanged(f, s, row, k, idChanged);
    } else if idChanged {
      ShadowedIdChanged(f, s, row, k);
    }
  }

  /** A shadowed row selected over a different text: the selection and text move to `k`. */
  lemma ShadowedTextChanged(f: nat, s: State, row: Row, k: Row, idChanged: bool)
    requires f >= 6 && Consistent(s) && row in s.schemes.rows && row != k
    requires k == Canonical(s.schemes, row)
    ensures Notify(f, Select(s, row), true, idChanged) == Follow(s, k)
  {
    var s1 := Select(s, row);
    var s2 := Follow(s, k);
    RowTextUsable(s.schemes, row);
    RaiseValueOnShadowed(f, s1, row, k);
    assert Follow(s1, k) == s2;
    if idChanged {
      RowTextUsable(s.schemes, k);
      RaiseIdFollows(f, s2, k);
      assert Follow(s2, k) == s2;
    }
  }

  /** A shadowed row selected over its own text but another ID. */
  lemma ShadowedIdChanged(f: nat, s: State, row: Row, k: Row)
    requires f >= 6 && Consistent(s) && row in s.schemes.rows && row != k
    requires k == Canonical(s.schemes, row)
    ensures Notify(f, Select(s, row), false, true) ==
      if s.current == row.value then Follow(s, k) else StoreText(Select(s, k), k.value)
  {
    var s1 := Select(s, row);
    RowTextUsable(s.schemes, row);
    if s.current == row.value {
      RaiseIdOnShadowedCurrent(f, s1, row, k);
      assert Follow(s1, k) == Follow(s, k);
    } else {
      RaiseIdOnShadowedOther(f, s1, row, k);
      assert Select(s1, k) == Select(s, k);
    }
  }

  /** The ID setter for null or an unknown ID: clear, then notify. */
  lemma UnfoldDeselectId(f: nat, s: State, id: Option<int>)
    requires f >= 1 && (id.None? || FirstById(s.schemes, id.value).None?)
    ensures SetSelectedSchemaId(f, s, id) ==
      Notify(f - 1, ClearSelection(s),
        s.selectedValue.Some? && s.selectedValue.value != "", s.selectedId.Some?)
  {
  }

  /** The text setter for a text no row matches: clear, then notify. */
  lemma UnfoldDeselectValue(f: nat, s: State, value: Option<string>)
    requires f >= 1 && FirstByValue(s.schemes, if value.None? then "" else Trim(value.value)).None?
    ensures SetSelectedSchemaValue(f, s, value) ==
      Notify(f - 1, ClearSelection(s),
        s.selectedValue.Some? && s.selectedValue.value != "", s.selectedId.Some?)
  {
  }

  /**
   * After clearing a selection, the text notification re-reads the selection
   * through the lazy getter, which finds the row `k` matching the current
   * text; the ID notification then makes the text follow `k`.
   */
  lemma NotifyAfterClearFinds(f: nat, s: State, k: Row)
    requires f >= 3 && Consistent(s) && s.selectedId.Some?
    requires FirstByValue(s.schemes, Trim(s.current)) == Some(k)
    ensures Notify(f, ClearSelection(s), true, true) == Follow(s, k)
  {
    ValueNoticeAfterClear(f, s, k);
    IdNoticeAfterClear(f, s, k);
  }

  /** The ID notification after the text one re-selected `k`: the text follows `k`. */
  lemma IdNoticeAfterClear(f: nat, s: State, k: Row)
    requires f >= 3 && Consistent(s)
    requires FirstByValue(s.schemes, Trim(s.current)) == Some(k)
    ensures RaisePropertyChanged(f, Select(s, k), SelectedSchemaIdProperty) == Follow(s, k)
  {
    LookupIgnoresCase(s.schemes, k.value, Trim(s.current));
    SelectThenRaiseId(f, s, k);
  }

  /** Both notifications: the ID one is raised on the state the text one leaves. */
  lemma NotifyBoth(f: nat, s: State)
    ensures Notify(f, s, true, true) ==
      RaisePropertyChanged(f, RaisePropertyChanged(f, s, SelectedSchemaValueProperty), SelectedSchemaIdProperty)
  {
  }

  /** The text notification after clearing re-reads the selection from the text. */
  lemma ValueNoticeAfterClear(f: nat, s: State, k: Row)
    requires f >= 2 && Consistent(s)
    requires FirstByValue(s.schemes, Trim(s.current)) == Some(k)
    ensures RaisePropertyChanged(f, ClearSelection(s), SelectedSchemaValueProperty) == Select(s, k)
    ensures Notify(f, ClearSelection(s), true, true) == RaisePropertyChanged(f, Select(s, k), SelectedSchemaIdProperty)
  {
    var sk := Select(s, k);
    NotifyBoth(f, ClearSelection(s));
    assert GetSelectedSchemaValue(ClearSelection(s)) == (sk, k.value);
    assert GetSelectedSchemaValue(sk) == (sk, k.value);
    RaiseValueReadsSelection(f, ClearSelection(s), sk);
    LookupIgnoresCase(s.schemes, k.value, Trim(s.current));
    RaiseValueSettled(f, sk, k);
  }

  /** A text notification depends on the state only through the getter's read. */
  lemma RaiseValueReadsSelection(f: nat, a: State, b: State)
    requires f >= 1 && GetSelectedSchemaValue(a) == GetSelectedSchemaValue(b)
    ensures RaisePropertyChanged(f, a, SelectedSchemaValueProperty) ==
      RaisePropertyChanged(f, b, SelectedSchemaValueProperty)
  {
  }

  /**
   * After clearing a selection when no row matches the current text, the
   * notifications find nothing and leave the selection cleared.
   */
  lemma NotifyAfterClearMisses(f: nat, s: State)
    requires f >= 3 && Consistent(s)
    requires FirstByValue(s.schemes, Trim(s.current)).None?
    ensures Notify(f, ClearSelection(s), true, true) == ClearSelection(s)
  {
    var t := s.schemes;
    var c := ClearSelection(s);
    var c0 := c.(selectedValue := Some(""));
    NoRowMatchesEmpty(t);
    assert RaisePropertyChanged(f, c, SelectedSchemaValueProperty) == c by {
      assert GetSelectedSchemaValue(c) == (c0, "");
      UnfoldDeselectId(f - 1, c0, None);
    }
    assert RaisePropertyChanged(f, c, SelectedSchemaIdProperty) == c by {
      assert GetSelectedSchemaId(c) == (c0, None);
      assert GetSelectedSchemaValue(c0) == (c0, "");
      if EqualsIgnoreCase(s.current, "") {
        EmptyOnlyEqualsEmpty(s.current);
        assert SetCurrentSchemaValue(f - 1, c0, None) == c0;
      }
      UnfoldDeselectValue(f - 1, c0, None);
    }
  }

  /** Clearing a consistent selection and notifying is `Deselect`. */
  lemma NotifyAfterClear(f: nat, s: State)
    requires f >= 3 && Consistent(s)
    ensures Notify(f, ClearSelection(s),
      s.selectedValue.Some? && s.selectedValue.value != "", s.selectedId.Some?) == Deselect(s)
  {
    if s.selectedId.Some? {
      match FirstByValue(s.schemes, Trim(s.current))
      case Some(k) => NotifyAfterClearFinds(f, s, k);
      case None => NotifyAfterClearMisses(f, s);
    }
  }

  lemma SelectIdMissing(f: nat, s: State, id: Option<int>)
    requires f >= 4 && Consistent(s) && (id.None? || FirstById(s.schemes, id.value).None?)
    ensures SetSelectedSchemaId(f, s, id) == Deselect(s)
  {
    var cleared := Notify(f - 1, ClearSelection(s),
      s.selectedValue.Some? && s.selectedValue.value != "", s.selectedId.Some?);
    assert SetSelectedSchemaId(f, s, id) == cleared by {
      UnfoldDeselectId(f, s, id);
    }
    assert cleared == Deselect(s) by {
      NotifyAfterClear(f - 1, s);
    }
  }

  // ---------------------------------------------------------------------------
  // The setters with a sufficient budget

  /** `SelectedSchemaId = id` settles to `SelectById`. */
  lemma SetSelectedSchemaIdSettles(fuel: nat, s: State, id: Option<int>)
    requires fuel >= MaxDepth && Consistent(s)
    ensures SetSelectedSchemaId(fuel, s, id) == SelectById(s, id)
  {
    match (if id.Some? then FirstById(s.schemes, id.value) else None)
    case None => SelectIdMissing(fuel, s, id);
    case Some(row) => SelectIdFound(fuel, s, row);
  }

  lemma SelectValueMissing(f: nat, s: State, value: Option<string>)
    requires f >= 4 && Consistent(s)
    requires FirstByValue(s.schemes, if value.None? then "" else Trim(value.value)).None?
    ensures SetSelectedSchemaValue(f, s, value) == Deselect(s)
  {
    var cleared := Notify(f - 1, ClearSelection(s),
      s.selectedValue.Some? && s.selectedValue.value != "", s.selectedId.Some?);
    assert SetSelectedSchemaValue(f, s, value) == cleared by {
      UnfoldDeselectValue(f, s, value);
    }
    assert cleared == Deselect(s) by {
      NotifyAfterClear(f - 1, s);
    }
  }

  lemma SelectValueFound(f: nat, s: State, text: string, k: Row)
    requires f >= 4 && Consistent(s) && FirstByValue(s.schemes, Trim(text)) == Some(k)
    ensures SetSelectedSchemaValue(f, s, Some(text)) ==
      if s.selectedId.Some? && s.selectedId.value != k.id then Follow(s, k) else Select(s, k)
  {
    var valueChanged := s.selectedValue.Some? && s.selectedValue.value != k.value;
    var idChanged := s.selectedId.Some? && s.selectedId.value != k.id;
    UnfoldSelectValue(f, s, text, k);
    LookupIgnoresCase(s.schemes, k.value, Trim(text));
    NotifyAfterSelect(f - 1, s, k, valueChanged, idChanged);
  }

  /** Selecting a first-of-its-text row and raising the ID notification: the text follows it. */
  lemma SelectThenRaiseId(f: nat, s: State, k: Row)
    requires f >= 3 && Consistent(s) && k in s.schemes.rows
    requires FirstByValue(s.schemes, k.value) == Some(k)
    ensures RaisePropertyChanged(f, Select(s, k), SelectedSchemaIdProperty) == Follow(s, k)
  {
    var sk := Select(s, k);
    RowTextUsable(s.schemes, k);
    RaiseIdFollows(f, sk, k);
    assert Follow(sk, k) == Follow(s, k);
  }

  /** Selecting a first-of-its-text row and notifying: the text follows it if the ID changed. */
  lemma NotifyAfterSelect(f: nat, s: State, k: Row, valueChanged: bool, idChanged: bool)
    requires f >= 3 && Consistent(s) && k in s.schemes.rows
    requires FirstByValue(s.schemes, k.value) == Some(k)
    ensures Notify(f, Select(s, k), valueChanged, idChanged) == if idChanged then Follow(s, k) else Select(s, k)
  {
    var sk := Select(s, k);
    RowTextUsable(s.schemes, k);
    NotifySettles(f, sk, k, valueChanged, idChanged);
    assert Follow(sk, k) == Follow(s, k);
  }

  /** `SelectedSchemaValue = value` settles to `SelectByValue`. */
  lemma SetSelectedSchemaValueSettles(fuel: nat, s: State, value: Option<string>)
    requires fuel >= MaxDepth && Consistent(s)
    ensures SetSelectedSchemaValue(fuel, s, value) == SelectByValue(s, value)
  {
    NoRowMatchesEmpty(s.schemes);
    match FirstByValue(s.schemes, if value.None? then "" else Trim(value.value))
    case None => SelectValueMissing(fuel, s, value);
    case Some(k) => SelectValueFound(fuel, s, value.value, k);
  }

  /** Assigning a blank text when the current text is not empty. */
  lemma UnfoldSetCurrentBlank(f: nat, s: State, value: Option<string>)
    requires f >= 1 && IsNullOrWhiteSpace(value) && s.current != ""
    ensures var s2 := SetSelectedSchemaId(f - 1, s.(current := ""), None);
      SetCurrentSchemaValue(f, s, value) ==
        SetSchemeErrorMessage(s2, Some(if s2.isRelative then "" else SchemeNotProvided))
  {
  }

  /** Clearing the text first: the ID setter's deselection finds nothing for "". */
  lemma BlankTextDeselects(f: nat, s: State)
    requires f >= 4 && Consistent(s)
    ensures SetSelectedSchemaId(f, s.(current := ""), None) == ClearSelection(s).(current := "")
  {
    NoRowMatchesEmpty(s.schemes);
    assert Trim("") == "";
    SelectIdMissing(f, s.(current := ""), None);
  }

  lemma SetCurrentBlank(f: nat, s: State, value: Option<string>)
    requires f >= 5 && Consistent(s) && IsNullOrWhiteSpace(value) && s.current != ""
    ensures SetCurrentSchemaValue(f, s, value) == StoreText(ClearSelection(s), "")
  {
    var s2 := ClearSelection(s).(current := "");
    assert SetCurrentSchemaValue(f, s, value) == SetSchemeErrorMessage(s2, Some(SchemeNotProvided)) by {
      BlankTextDeselects(f - 1, s);
      UnfoldSetCurrentBlank(f, s, value);
    }
    assert SetSchemeErrorMessage(s2, Some(SchemeNotProvided)) == StoreText(s2, "") by {
      assert DerivedMessage("", false) == SchemeNotProvided by { assert Trim("") == ""; }
      MessageSetterStores(s2, SchemeNotProvided);
    }
    StoreTextReplacesText(ClearSelection(s), "", "");
  }

  /** Storing a text does not depend on the text it replaces, nor on storing it before. */
  lemma StoreTextReplacesText(s: State, previous: string, text: string)
    ensures StoreText(s.(current := previous), text) == StoreText(s, text)
    ensures StoreText(StoreText(s, text), text) == StoreText(s, text)
  {
  }

  lemma SetCurrentOther(f: nat, s: State, x: string)
    requires f >= 8 && Consistent(s) && !IsBlank(x) && s.current != x
    ensures var s2 := SelectById(s.(current := x), IdOf(FirstByValue(s.schemes, Trim(x))));
      SetCurrentSchemaValue(f, s, Some(x)) == StoreText(s2, s2.current)
  {
    var t := s.schemes;
    var s1 := s.(current := x);
    var found := FirstByValue(t, Trim(x));
    var s2 := SelectById(s1, IdOf(found));
    assert SetSelectedSchemaId(f - 1, s1, IdOf(found)) == s2 by {
      match found {
        case None => SelectIdMissing(f - 1, s1, None);
        case Some(row) =>
          FindOwnId(t, row);
          SelectIdFound(f - 1, s1, row);
      }
    }
    assert !IsBlank(s2.current) by {
      SelectFirstMatch(s1, found);
      if found.Some? {
        RowTextUsable(t, found.value);
      }
    }
    UnfoldSetCurrentOther(f, s, x);
    MessageSetterStores(s2, DerivedMessage(s2.current, false));
  }

  /** `CurrentSchemaValue = value` settles to `SetText`. */
  lemma SetCurrentSchemaValueSettles(fuel: nat, s: State, value: Option<string>)
    requires fuel >= MaxDepth && Consistent(s)
    ensures SetCurrentSchemaValue(fuel, s, value) == SetText(s, value)
  {
    if IsNullOrWhiteSpace(value) {
      if s.current != "" {
        SetCurrentBlank(fuel, s, value);
      }
    } else if s.current != value.value {
      SetCurrentOther(fuel, s, value.value);
    }
  }

  /** The constructor settles to `Settled.Construct`. */
  lemma ConstructSettles(fuel: nat, scheme: string)
    requires fuel >= MaxDepth
    ensures Propagation.Construct(fuel, scheme) == Settled.Construct(scheme)
  {
    SetCurrentSchemaValueSettles(fuel, FirstReadOfCurrent(Create()), Some(scheme));
  }
}

=== FILE: findings.dfy ===
/**
 * Three places where `UriParserDataSet`, as written, does not keep the promise
 * its own code makes. For each, a lemma on the as-written model
 * exhibits a concrete state that shows it, and a corrected definition carries
 * the evidently intended property. `StepFixed` assembles the corrections into
 * a host-level model whose invariant includes all three promises.
 *
 * 1. `SchemeIsValid` should say whether `SchemeErrorMessage` is empty. The
 *    message setter assigns it only when the new message differs from what the
 *    message getter returned; when no message was cached yet, that getter
 *    derives one from the text just stored, which is the new message itself,
 *    so the flag is never assigned and stays `false`, even for a valid scheme.
 * 2. `SelectedSchemaId = null` (or an unknown ID) should clear the selection,
 *    and the current text too when it merely mirrors the selected text. The
 *    notification handler tests the mirroring against `SelectedSchemaValue`
 *    after the setter has cleared the field, so the lazy getter re-derives the
 *    selection from the current text, and the handler selects it again.
 * 3. Choosing a row through `SelectedSchemaId` should copy the row's text into
 *    `CurrentSchemaValue`. That copy happens in the handler of the ID
 *    notification, which the setter raises only if an ID was selected before;
 *    choosing a row when nothing was selected leaves the typed text in place.
 */
module Findings {
  import opened Optional
  import opened Text
  import opened SchemeTable
  import opened ParserState
  import opened Settled
  import opened Validator

  // ---------------------------------------------------------------------------
  // Facts about the built-in registry and the constructor's first read

  lemma HttpIsRowZero()
    ensures FirstByValue(Create(), "http") == Some(Row(0, "http"))
  {
    var t := Create();
    FirstValueIndexAt(t.rows, Fold("http"), 0);
  }

  /** Every built-in scheme name has at least three letters. */
  lemma NoBuiltInMatchesOneLetter(text: string)
    requires |text| == 1
    ensures FirstByValue(Create(), text) == None
  {
    var t := Create();
    BuiltInNamesLong();
    forall row | row in t.rows ensures !EqualsIgnoreCase(row.value, text) {
      var i :| 0 <= i < |t.rows| && t.rows[i] == row;
      assert |row.value| >= 3;
      assert |Fold(row.value)| != |Fold(text)|;
    }
  }

  lemma BuiltInNamesLong()
    ensures forall i :: 0 <= i < |BuiltInSchemes| ==> |BuiltInSchemes[i]| >= 3
  {
  }

  /** The state the constructor's assignment starts from. */
  lemma FirstReadFacts(t: Table)
    requires SchemesUsable(t)
    ensures var s := FirstReadOfCurrent(t);
      && Invariant(s) && s.schemes == t
      && s.current == "" && s.message.None? && !s.isValid
      && s.selectedValue == Some("") && s.selectedId.None?
  {
    NoRowMatchesEmpty(t);
    assert Trim("") == "";
  }

  // ---------------------------------------------------------------------------
  // Finding 1: the validity flag

  /** `SchemeIsValid` says whether the message the getter returns is empty. */
  predicate ValidityAgrees(s: State) {
    s.isValid <==> EffectiveMessage(s) == ""
  }

  /** In a reachable state the message is empty exactly for a well-formed scheme text. */
  lemma EmptyMessageMeansWellFormed(s: State)
    requires Invariant(s)
    ensures EffectiveMessage(s) == "" <==> CheckSchemeName(s.current)
  {
    if CheckSchemeName(s.current) {
      SchemeNameIsTrimmed(s.current);
    }
  }

  /** Constructing with a well-formed scheme leaves the text well formed; the row may re-case it. */
  lemma ConstructKeepsGrammar(scheme: string)
    ensures CheckSchemeName(scheme) ==> CheckSchemeName(Construct(scheme).current)
  {
    if CheckSchemeName(scheme) {
      var s := FirstReadOfCurrent(Create());
      FirstReadFacts(Create());
      SetTextKeepsGrammar(s, scheme);
    }
  }

  /** Assigning a well-formed scheme leaves a well-formed text, in the spelling given or the row's. */
  lemma SetTextKeepsGrammar(s: State, scheme: string)
    requires Consistent(s) && CheckSchemeName(scheme)
    ensures CheckSchemeName(SetText(s, Some(scheme)).current)
  {
    var r := SetText(s, Some(scheme));
    SchemeNameIsTrimmed(scheme);
    if r.current != scheme {
      var found := FirstByValue(s.schemes, Trim(scheme));
      assert found.Some? && r.current == found.value.value;
      SchemeNameIgnoresCase(found.value.value, scheme);
    }
  }

  /**
   * The constructor's assignment of a non-blank scheme selects the first
   * built-in row matching the trimmed scheme, and the text keeps the given
   * spelling or takes that row's.
   */
  lemma ConstructSelects(scheme: string)
    requires !IsBlank(scheme)
    ensures var r := Construct(scheme);
      var found := FirstByValue(Create(), Trim(scheme));
      && Consistent(r)
      && r.selectedId == IdOf(found)
      && (found.Some? ==> r.selectedValue == Some(found.value.value))
      && (found.None? ==> r.selectedValue.None? && r.current == scheme)
      && (r.current == scheme || (found.Some? && r.current == found.value.value))
  {
    var s := FirstReadOfCurrent(Create());
    FirstReadFacts(Create());
    assert s.current != scheme;
  }

  /** As written: the constructor never sets `SchemeIsValid`, whatever the scheme. */
  lemma ConstructNeverValid(scheme: string)
    ensures !Construct(scheme).isValid
  {
    FirstReadFacts(Create());
  }

  /**
   * As written: for every well-formed scheme the object reports an empty error
   * message together with `SchemeIsValid == false`.
   */
  lemma ValidSchemeReportedInvalid(scheme: string)
    requires CheckSchemeName(scheme)
    ensures var s := Construct(scheme);
      EffectiveMessage(s) == "" && !s.isValid && !ValidityAgrees(s)
  {
    ConstructNeverValid(scheme);
    ConstructKeepsGrammar(scheme);
    EmptyMessageMeansWellFormed(Construct(scheme));
  }

  /** As written, `new UriParserDataSet(new UriBuilder("http://…"))`. */
  lemma HttpReportedInvalid()
    ensures Construct("http").message == Some("") && !Construct("http").isValid
  {
    ValidSchemeReportedInvalid("http");
    FirstReadFacts(Create());
  }

  /**
   * Corrected message setter: `SchemeIsValid` is assigned whenever the new
   * message differs from the message stored before, a missing one included.
   */
  function StoreTextFixed(s: State, text: string): (r: State)
    ensures r.current == text && r.message == Some(DerivedMessage(text, s.isRelative))
    ensures r.(current := s.current, message := s.message, isValid := s.isValid) == s
    ensures (s.message.Some? ==> ValidityAgrees(s)) ==> ValidityAgrees(r)
  {
    var m := DerivedMessage(text, s.isRelative);
    s.(current := text, message := Some(m), isValid := if s.message == Some(m) then s.isValid else m == "")
  }

  /**
   * An as-written transition from `s` to `r`, with the corrected message
   * setter. Every run of the message setter inside a setter is for the final
   * text, so only the first can change the flag: it compares the final message
   * with the one stored in `s`.
   */
  function WithFixedFlag(s: State, r: State): (f: State)
    requires TextKept(s, r) || TextStored(s, r)
    requires r.isRelative == s.isRelative
    ensures f == r.(isValid := f.isValid)
    ensures ValidityAgrees(s) ==> ValidityAgrees(f)
  {
    if TextKept(s, r) then r
    else StoreTextFixed(r.(message := s.message, isValid := s.isValid), r.current)
  }

  /** After a text change, the selection, if any, is the row matching the trimmed text. */
  lemma SetTextMatchesSelection(s: State, value: Option<string>)
    requires Consistent(s)
    ensures TextMatchesSelection(s) ==> TextMatchesSelection(SetText(s, value))
  {
    var r := SetText(s, value);
    if r != s && r.selectedId.Some? {
      var found := FirstByValue(s.schemes, Trim(value.value));
      RowTextUsable(s.schemes, found.value);
      TrimOfTrimmed(found.value.value);
    }
  }

  /** `CurrentSchemaValue = value` with the corrected message setter. */
  function SetTextFixed(s: State, value: Option<string>): (r: State)
    requires Consistent(s)
    ensures r == SetText(s, value).(isValid := r.isValid)
    ensures Consistent(r) && (Invariant(s) ==> Invariant(r))
    ensures ValidityAgrees(s) ==> ValidityAgrees(r)
    ensures TextMatchesSelection(s) ==> TextMatchesSelection(r)
  {
    SetTextMatchesSelection(s, value);
    SetTextKeepsOrStores(s, value);
    var t := SetText(s, value);
    var r := WithFixedFlag(s, t);
    assert r.schemes == t.schemes && r.current == t.current && r.message == t.message;
    assert r.isRelative == t.isRelative && r.selectedValue == t.selectedValue && r.selectedId == t.selectedId;
    r
  }

  /** The text setter either keeps the text and message or runs the message setter for its final text. */
  lemma SetTextKeepsOrStores(s: State, value: Option<string>)
    requires Consistent(s)
    ensures var t := SetText(s, value);
      (TextKept(s, t) || TextStored(s, t)) && t.isRelative == s.isRelative
  {
  }

  /** The constructor with the corrected message setter. */
  function ConstructFixed(scheme: string): (r: State)
    ensures r == Construct(scheme).(isValid := r.isValid)
    ensures FixedInvariant(r)
    ensures r.isValid <==> CheckSchemeName(r.current)
    ensures CheckSchemeName(scheme) ==> r.isValid
  {
    var t := Create();
    FirstReadFacts(t);
    ConstructKeepsGrammar(scheme);
    var r := SetTextFixed(FirstReadOfCurrent(t), Some(scheme));
    EmptyMessageMeansWellFormed(r);
    r
  }

  // ---------------------------------------------------------------------------
  // Finding 2: deselecting

  /**
   * As written: with a row selected whose text is the current text, clearing
   * the selection or selecting an unknown ID changes nothing at all.
   */
  lemma DeselectReselects(s: State, row: Row, id: Option<int>)
    requires Consistent(s) && row in s.schemes.rows
    requires s.selectedId == Some(row.id) && s.selectedValue == Some(row.value) && s.current == row.value
    requires FirstByValue(s.schemes, row.value) == Some(row)
    requires id.None? || FirstById(s.schemes, id.value).None?
    ensures SelectById(s, id) == s
  {
    LookupTrimmedRow(s.schemes, row);
  }

  /** As written: constructed with "http", `SelectedSchemaId = null` keeps row 0 selected. */
  lemma DeselectAfterHttp()
    ensures var s := Construct("http");
      && s.current == "http" && s.selectedId == Some(0)
      && SelectById(s, None) == s
  {
    ConstructHttp();
    DeselectHttpKept(Construct("http"));
  }

  lemma ConstructHttp()
    ensures var s := Construct("http");
      && Consistent(s) && s.schemes == Create()
      && s.current == "http" && s.selectedValue == Some("http") && s.selectedId == Some(0)
  {
    HttpIsRowZero();
    SchemeNameIsTrimmed("http");
    ConstructSelects("http");
  }

  lemma DeselectHttpKept(s: State)
    requires Consistent(s) && s.schemes == Create()
    requires s.current == "http" && s.selectedValue == Some("http") && s.selectedId == Some(0)
    ensures SelectById(s, None) == s
  {
    HttpIsRowZero();
    assert Create().rows[0] == Row(0, "http");
    DeselectReselects(s, Row(0, "http"), None);
  }

  /** The current text mirrors a non-empty selected text, up to case. */
  predicate Mirrors(s: State) {
    && s.selectedValue.Some? && s.selectedValue.value != ""
    && EqualsIgnoreCase(s.current, s.selectedValue.value)
  }

  /**
   * Corrected deselection: the selection is cleared, and the current text is
   * cleared as well exactly when it mirrored the selected text.
   */
  function DeselectFixed(s: State): (r: State)
    requires Consistent(s)
    ensures r.selectedValue.None? && r.selectedId.None?
    ensures r.schemes == s.schemes && r.isRelative == s.isRelative
    ensures Mirrors(s) ==> r.current == "" && r.message == Some(SchemeNotProvided)
    ensures !Mirrors(s) ==> TextKept(s, r)
    ensures Invariant(s) ==> Invariant(r)
    ensures ValidityAgrees(s) ==> ValidityAgrees(r)
  {
    var c := ClearSelection(s);
    if Mirrors(s) then StoreTextFixed(c, "") else c
  }

  // ---------------------------------------------------------------------------
  // Finding 3: choosing a row

  /** With a row selected, the trimmed current text equals its text up to case. */
  predicate TextMatchesSelection(s: State) {
    s.selectedId.Some? ==> s.selectedValue.Some? && EqualsIgnoreCase(Trim(s.current), s.selectedValue.value)
  }

  /**
   * As written: with nothing selected, choosing a row that is the first with
   * its text selects it but leaves the current text alone.
   */
  lemma PickKeepsTypedText(s: State, row: Row)
    requires Consistent(s) && row in s.schemes.rows
    requires s.selectedId.None? && FirstByValue(s.schemes, row.value) == Some(row)
    ensures SelectById(s, Some(row.id)) == Select(s, row)
  {
    FindOwnId(s.schemes, row);
  }

  /** As written: constructed with "x", then `SelectedSchemaId = 0` leaves the text "x". */
  lemma PickAfterUnknownScheme()
    ensures var s := SelectById(Construct("x"), Some(0));
      && s.current == "x" && s.selectedValue == Some("http") && s.selectedId == Some(0)
      && !TextMatchesSelection(s)
  {
    ConstructUnknown();
    PickHttpKeepsText(Construct("x"));
  }

  lemma ConstructUnknown()
    ensures var s := Construct("x");
      Consistent(s) && s.schemes == Create() && s.current == "x" && s.selectedId.None?
  {
    NoBuiltInMatchesOneLetter("x");
    SchemeNameIsTrimmed("x");
    ConstructSelects("x");
  }

  lemma PickHttpKeepsText(s: State)
    requires Consistent(s) && s.schemes == Create() && s.current == "x" && s.selectedId.None?
    ensures var r := SelectById(s, Some(0));
      && r.current == "x" && r.selectedValue == Some("http") && r.selectedId == Some(0)
      && !TextMatchesSelection(r)
  {
    var http := Row(0, "http");
    HttpIsRowZero();
    assert Create().rows[0] == http;
    PickKeepsTypedText(s, http);
    var r := SelectById(s, Some(http.id));
    assert r == Select(s, http);
    SchemeNameIsTrimmed("x");
    DifferentLengthsNeverEqual(Trim(r.current), "http");
  }

  /**
   * Corrected choice of a row: the first row with the chosen row's text up to
   * case is selected, and the current text becomes that row's text.
   */
  function PickRow(s: State, row: Row): (r: State)
    requires Consistent(s) && row in s.schemes.rows
    ensures Consistent(r) && SelectsRow(r) && r.schemes == s.schemes
    ensures r.selectedValue == Some(r.current) && EqualsIgnoreCase(r.current, row.value)
    ensures FirstByValue(r.schemes, r.current) == Some(Row(r.selectedId.value, r.current))
    ensures FirstByValue(s.schemes, row.value) == Some(row) ==> r.selectedId == Some(row.id) && r.current == row.value
    ensures TextMatchesSelection(r)
    ensures Invariant(s) ==> Invariant(r)
    ensures ValidityAgrees(s) ==> ValidityAgrees(r)
  {
    var k := Canonical(s.schemes, row);
    var r := if s.current == k.value then Select(s, k) else StoreTextFixed(Select(s, k), k.value);
    PickRowSelectsCanonical(s, row, k, r);
    r
  }

  lemma PickRowSelectsCanonical(s: State, row: Row, k: Row, r: State)
    requires Consistent(s) && row in s.schemes.rows && k == Canonical(s.schemes, row)
    requires r == if s.current == k.value then Select(s, k) else StoreTextFixed(Select(s, k), k.value)
    ensures Consistent(r) && SelectsRow(r) && r.schemes == s.schemes
    ensures r.selectedValue == Some(r.current) && r.current == k.value && r.selectedId == Some(k.id)
    ensures TextMatchesSelection(r)
    ensures Invariant(s) ==> Invariant(r)
    ensures ValidityAgrees(s) ==> ValidityAgrees(r)
  {
    RowTextUsable(s.schemes, k);
    TrimOfTrimmed(k.value);
  }

  // ---------------------------------------------------------------------------
  // The corrected object

  /** What every corrected transition keeps. */
  predicate FixedInvariant(s: State) {
    Invariant(s) && ValidityAgrees(s) && TextMatchesSelection(s)
  }

  /** `SelectedSchemaId = id`, corrected. */
  function SelectByIdFixed(s: State, id: Option<int>): (r: State)
    requires Consistent(s)
    ensures FixedInvariant(s) ==> FixedInvariant(r)
    ensures r.schemes == s.schemes
    ensures id.Some? && FirstById(s.schemes, id.value).Some? ==>
      EqualsIgnoreCase(r.current, FirstById(s.schemes, id.value).value.value) && r.selectedValue == Some(r.current)
    ensures (id.None? || FirstById(s.schemes, id.value).None?) ==> r == DeselectFixed(s)
  {
    match (if id.Some? then FirstById(s.schemes, id.value) else None)
    case None => DeselectFixed(s)
    case Some(row) => PickRow(s, row)
  }

  /** `SelectedSchemaValue = value`, corrected: routed through the ID of the row it names. */
  function SelectByValueFixed(s: State, value: Option<string>): (r: State)
    requires Consistent(s)
    ensures FixedInvariant(s) ==> FixedInvariant(r)
    ensures r.schemes == s.schemes
    ensures var found := FirstByValue(s.schemes, if value.None? then "" else Trim(value.value));
      && (found.Some? ==> r.selectedId == Some(found.value.id) && r.current == found.value.value)
      && (found.None? ==> r == DeselectFixed(s))
  {
    var v := if value.None? then "" else Trim(value.value);
    match FirstByValue(s.schemes, v)
    case None => DeselectFixed(s)
    case Some(k) =>
      FirstMatchIsStable(s.schemes, k);
      PickRow(s, k)
  }

  /** One host event on the corrected object. */
  function StepFixed(s: State, e: Event): (r: State)
    requires FixedInvariant(s) && Admissible(e)
    ensures FixedInvariant(r) && r.schemes.known == s.schemes.known
  {
    match e
    case AssignCurrent(v) => SetTextFixed(s, v)
    case AssignSelectedId(id) => SelectByIdFixed(s, id)
    case AssignSelectedValue(v) => SelectByValueFixed(s, v)
    case ReadMessage => ReadMessageKeepsFixed(s); ReadSchemeErrorMessage(s).0
    case ReadSelection => ReadSelectionKeepsFixed(s); ReadSelectedScheme(s)
    case EditSchemes(op) => EditRegistry(s, op)
  }

  /** Reading the message caches the message the flag already agrees with. */
  lemma ReadMessageKeepsFixed(s: State)
    requires FixedInvariant(s)
    ensures FixedInvariant(ReadSchemeErrorMessage(s).0)
  {
  }

  /** Resolving the selection picks the row the trimmed current text names. */
  lemma ReadSelectionKeepsFixed(s: State)
    requires FixedInvariant(s)
    ensures FixedInvariant(ReadSelectedScheme(s))
  {
    var r := ReadSelectedScheme(s);
    var found := FirstByValue(s.schemes, Trim(s.current));
    if s.selectedValue.None? && found.Some? {
      assert EqualsIgnoreCase(found.value.value, Trim(s.current));
      assert Fold(Trim(r.current)) == Fold(r.selectedValue.value);
    }
  }

  function RunFixed(s: State, es: seq<Event>): (r: State)
    requires FixedInvariant(s) && AllAdmissible(es)
    decreases |es|
    ensures FixedInvariant(r) && r.schemes.known == s.schemes.known
  {
    if es == [] then s
    else RunFixed(StepFixed(s, es[0]), es[1..])
  }

  /**
   * On the corrected object, whatever the host does after construction,
   * `SchemeIsValid` is true exactly when the message the host reads is empty,
   * which is exactly when the current text is a well-formed scheme name.
   */
  lemma ValidityAlwaysAgrees(scheme: string, es: seq<Event>)
    requires AllAdmissible(es)
    ensures var s := RunFixed(ConstructFixed(scheme), es);
      && (s.isValid <==> ReadSchemeErrorMessage(s).1 == "")
      && (s.isValid <==> CheckSchemeName(s.current))
  {
    var s := RunFixed(ConstructFixed(scheme), es);
    EmptyMessageMeansWellFormed(s);
  }
}

=== FILE: optional.dfy ===
/** C# `null` for reference types and `Nullable<T>` for value types, as an explicit option. */
module Optional {

  datatype Option<+T> = None | Some(value: T)

  /** Success or failure of an operation that the C# reports by throwing. */
  datatype Result<+T, +E> = Ok(value: T) | Err(error: E)
}

=== FILE: parser_state.dfy ===
/**
 * The backing fields of `UriParserDataSet` and its lazy getters.
 *
 * Each property is a nullable field that its getter fills in on first read.
 * Reads therefore change the state, and the setters compare against values
 * read through the getters; both facts matter for what the setters do.
 */
module ParserState {
  import opened Optional
  import opened Text
  import opened SchemeTable

  const SchemeNotProvided: string := "Scheme not provided."
  const InvalidUriScheme: string := "Invalid URI scheme"

  /**
   * The fields after construction. `None` stands for C# `null`:
   * - `current` (`_currentSchemaValue`) is never null once the constructor ran;
   * - `message` (`_schemeErrorMessage`) is null until first read or first set;
   * - `isValid` (`_schemeIsValid`) starts `false` and is never null;
   * - `isRelative` (`_isRelative`) starts `false` and is never null;
   * - `selectedValue`/`selectedId` (`_selectedSchemaValue`/`_selectedSchemaId`).
   */
  datatype State = State(
    schemes: Table,
    current: string,
    message: Option<string>,
    isValid: bool,
    isRelative: bool,
    selectedValue: Option<string>,
    selectedId: Option<int>)

  /**
   * The message for a scheme text: none needed for an empty text of a relative
   * URI, "Scheme not provided." for an empty text otherwise, and for a non-empty
   * text the verdict of the scheme grammar on the text as stored (untrimmed).
   */
  function DerivedMessage(current: string, isRelative: bool): (m: string)
    ensures m == "" <==> if IsBlank(current) then isRelative else CheckSchemeName(current)
    ensures m in {"", SchemeNotProvided, InvalidUriScheme}
  {
    if Trim(current) == "" then (if isRelative then "" else SchemeNotProvided)
    else if CheckSchemeName(current) then "" else InvalidUriScheme
  }

  /** Both messages are non-blank and have no surrounding white space. */
  lemma MessagesAreTrimmed()
    ensures !IsBlank(SchemeNotProvided) && IsTrimmed(SchemeNotProvided)
    ensures !IsBlank(InvalidUriScheme) && IsTrimmed(InvalidUriScheme)
  {
    assert !IsWhiteSpace(SchemeNotProvided[0]);
    assert !IsWhiteSpace(InvalidUriScheme[0]);
  }

  /** What the `SchemeErrorMessage` getter returns in this state. */
  function EffectiveMessage(s: State): string {
    if s.message.Some? then s.message.value else DerivedMessage(s.current, s.isRelative)
  }

  /** The `SchemeErrorMessage` getter: computes and caches the message on first read. */
  function GetSchemeErrorMessage(s: State): (r: (State, string))
    ensures r.1 == EffectiveMessage(s) && r.0 == s.(message := Some(r.1))
  {
    match s.message
    case Some(m) => (s, m)
    case None =>
      var m := DerivedMessage(s.current, s.isRelative);
      (s.(message := Some(m)), m)
  }

  /**
   * The shared lazy part of the `SelectedSchemaValue` and `SelectedSchemaId`
   * getters: when the selected text is null, select the first row matching the
   * trimmed current text, or record an empty selected text (leaving the ID).
   */
  function ResolveSelection(s: State): (r: State)
    ensures r.selectedValue.Some?
    ensures r.(selectedValue := s.selectedValue, selectedId := s.selectedId) == s
    ensures s.selectedValue.Some? ==> r == s
    ensures s.selectedValue.None? && FirstByValue(s.schemes, Trim(s.current)).Some? ==>
      var row := FirstByValue(s.schemes, Trim(s.current)).value;
      r.selectedValue == Some(row.value) && r.selectedId == Some(row.id)
    ensures s.selectedValue.None? && FirstByValue(s.schemes, Trim(s.current)).None? ==>
      r.selectedValue == Some("") && r.selectedId == s.selectedId
  {
    if s.selectedValue.Some? then s
    else match FirstByValue(s.schemes, Trim(s.current))
      case Some(row) => s.(selectedValue := Some(row.value), selectedId := Some(row.id))
      case None => s.(selectedValue := Some(""))
  }

  /**
   * The message getter caches what it returns: reading again returns the same
   * message and changes nothing, and the text, flags and selection are never
   * touched by a read.
   */
  lemma MessageReadIsStable(s: State)
    ensures var (s1, m) := GetSchemeErrorMessage(s);
      && GetSchemeErrorMessage(s1) == (s1, m)
      && s1.(message := s.message) == s
      && (s.message.Some? ==> s1 == s && m == s.message.value)
  {
  }

  /**
   * The lazy selection is resolved at most once: resolving a resolved state
   * changes nothing, so both selection getters see the same pair afterwards.
   */
  lemma ResolveIsIdempotent(s: State)
    ensures ResolveSelection(ResolveSelection(s)) == ResolveSelection(s)
    ensures GetSelectedSchemaValue(ResolveSelection(s)).0 == GetSelectedSchemaId(ResolveSelection(s)).0
  {
  }

  /** The `SelectedSchemaValue` getter; never returns null. */
  function GetSelectedSchemaValue(s: State): (State, string) {
    var r := ResolveSelection(s);
    (r, r.selectedValue.value)
  }

  /** The `SelectedSchemaId` getter. */
  function GetSelectedSchemaId(s: State): (State, Option<int>) {
    var r := ResolveSelection(s);
    (r, r.selectedId)
  }

  /**
   * The object just before the constructor's assignment to `CurrentSchemaValue`
   * completes its first statement: that statement reads the getter, which finds
   * the field null, sets it to "" and then to `SelectedSchemaValue`, whose own
   * lazy read selects the row matching "" or records an empty selection.
   */
  function FirstReadOfCurrent(t: Table): State {
    var s0 := State(t, "", None, false, false, None, None);
    var (s1, v) := GetSelectedSchemaValue(s0);
    s1.(current := v)
  }

  // ---------------------------------------------------------------------------
  // Invariants of reachable states

  /** The registry is well formed and its texts are usable lookup keys. */
  predicate SchemesUsable(t: Table) {
    WellFormed(t) && TextsTrimmed(t)
  }

  /** A selected ID goes with a non-empty selected text, and vice versa. */
  predicate SelectionPaired(s: State) {
    (s.selectedValue.Some? && s.selectedValue.value != "") <==> s.selectedId.Some?
  }

  /** What every setter keeps: the message aside, the state is consistent. */
  predicate Consistent(s: State) {
    SchemesUsable(s.schemes) && !s.isRelative && SelectionPaired(s)
  }

  /** A cached message is the one derived from the current text. */
  predicate MessageCurrent(s: State) {
    s.message.Some? ==> s.message.value == DerivedMessage(s.current, s.isRelative)
  }

  predicate Invariant(s: State) {
    Consistent(s) && MessageCurrent(s)
  }
}

=== FILE: propagation.dfy ===
/**
 * The property setters of `UriParserDataSet` and the notification handler they
 * call, transcribed branch for branch.
 *
 * The setters are re-entrant: `SelectedSchemaId` and `SelectedSchemaValue`
 * raise notifications whose handler assigns `CurrentSchemaValue`,
 * `SelectedSchemaValue` and `SelectedSchemaId` again. Each function here
 * takes a call-depth budget `fuel`; every nested setter or handler call
 * spends one unit, and at zero the call does nothing. The equivalence lemmas
 * show that a small fixed budget already gives the unbounded behaviour on
 * every consistent state, so the budget is never what decides a result.
 */
module Propagation {
  import opened Optional
  import opened Text
  import opened SchemeTable
  import opened ParserState

  /** The two property names the setters raise notifications for. */
  datatype Property = SelectedSchemaValueProperty | SelectedSchemaIdProperty

  /**
   * The private `SchemeErrorMessage` setter. A blank message is stored as "",
   * anything else trimmed; `SchemeIsValid` is assigned only when the stored
   * message differs from what the getter returned just before, and then says
   * whether the new message is empty.
   */
  function SetSchemeErrorMessage(s: State, value: Option<string>): (r: State)
    ensures r.message == Some(if IsNullOrWhiteSpace(value) then "" else Trim(value.value))
    ensures r.isValid == if EffectiveMessage(s) == r.message.value then s.isValid else r.message.value == ""
    ensures r.(message := s.message, isValid := s.isValid) == s
  {
    var (s1, before) := GetSchemeErrorMessage(s);
    if IsNullOrWhiteSpace(value) then
      var s2 := s1.(message := Some(""));
      if |before| == 0 then s2 else s2.(isValid := true)
    else
      var m := Trim(value.value);
      var s2 := s1.(message := Some(m));
      if before == m then s2 else s2.(isValid := |m| == 0)
  }

  /** A message that is empty or non-blank and trimmed is stored unchanged. */
  lemma StoresMessageAsGiven(s: State, m: string)
    requires m == "" || (IsTrimmed(m) && !IsBlank(m))
    ensures SetSchemeErrorMessage(s, Some(m)).message == Some(m)
  {
    if m != "" {
      TrimOfTrimmed(m);
    }
  }

  /**
   * The private `IsRelative` setter: when the flag changes, the message is
   * re-derived from the current text under the new flag.
   */
  function SetIsRelative(s: State, value: bool): (r: State)
    ensures r.isRelative == value
    ensures value == s.isRelative ==> r == s
    ensures value != s.isRelative ==> r.message == Some(DerivedMessage(s.current, value))
  {
    var notChanged := value == s.isRelative;
    var s1 := s.(isRelative := value);
    if notChanged then s1
    else
      // The assigned message is the one the getter derives, computed under the new flag.
      var m := DerivedMessage(s1.current, value);
      MessagesAreTrimmed();
      StoresMessageAsGiven(s1, m);
      SetSchemeErrorMessage(s1, Some(m))
  }

  /**
   * The `CurrentSchemaValue` setter: stores "" for blank input and the input
   * verbatim otherwise, returns early when that equals what the getter read,
   * else selects the registry row matching the trimmed text (or none) and
   * finally sets the message for the new text.
   */
  function SetCurrentSchemaValue(fuel: nat, s: State, value: Option<string>): (r: State)
    decreases fuel, 0
    ensures r.schemes == s.schemes
    ensures r.isRelative ==> s.isRelative
  {
    if fuel == 0 then s
    else
      var blank := IsNullOrWhiteSpace(value);
      var notChanged := if blank then |s.current| == 0 else s.current == value.value;
      var s1 := s.(current := if blank then "" else value.value);
      if notChanged then s1
      else
        var c := Trim(s1.current);
        var s2 := SetSelectedSchemaId(fuel - 1, s1,
          if |c| == 0 then None else IdOf(FirstByValue(s1.schemes, c)));
        if |c| == 0 then
          SetSchemeErrorMessage(s2, Some(if s2.isRelative then "" else SchemeNotProvided))
        else
          var s3 := SetIsRelative(s2, false);
          SetSchemeErrorMessage(s3, Some(if CheckSchemeName(s3.current) then "" else InvalidUriScheme))
  }

  /**
   * The `SelectedSchemaId` setter: an ID with a row selects that row; an
   * unknown ID or null clears both selected fields. Afterwards it notifies
   * about the text if the old non-empty text differs, and about the ID if the
   * old ID was present and differs.
   */
  function SetSelectedSchemaId(fuel: nat, s: State, value: Option<int>): (r: State)
    decreases fuel, 1
    ensures r.schemes == s.schemes
    ensures r.isRelative ==> s.isRelative
  {
    if fuel == 0 then s
    else
      var found := if value.Some? then FirstById(s.schemes, value.value) else None;
      var valueChanged :=
        if found.Some? then s.selectedValue.Some? && s.selectedValue.value != found.value.value
        else s.selectedValue.Some? && s.selectedValue.value != "";
      var idChanged :=
        if found.Some? then s.selectedId.Some? && s.selectedId != value
        else s.selectedId.Some?;
      var s1 :=
        if found.Some? then s.(selectedValue := Some(found.value.value), selectedId := value)
        else s.(selectedValue := None, selectedId := None);
      Notify(fuel - 1, s1, valueChanged, idChanged)
  }

  /**
   * The `SelectedSchemaValue` setter: the first row matching the trimmed text
   * is selected, or both selected fields are cleared; notifications as for
   * the ID setter.
   */
  function SetSelectedSchemaValue(fuel: nat, s: State, value: Option<string>): (r: State)
    decreases fuel, 1
    ensures r.schemes == s.schemes
    ensures r.isRelative ==> s.isRelative
  {
    if fuel == 0 then s
    else
      var v := if value.None? then "" else Trim(value.value);
      var found := FirstByValue(s.schemes, v);
      var valueChanged :=
        if found.Some? then s.selectedValue.Some? && s.selectedValue.value != found.value.value
        else s.selectedValue.Some? && s.selectedValue.value != "";
      var idChanged :=
        if found.Some? then s.selectedId.Some? && s.selectedId.value != found.value.id
        else s.selectedId.Some?;
      var s1 :=
        if found.Some? then s.(selectedValue := Some(found.value.value), selectedId := Some(found.value.id))
        else s.(selectedValue := None, selectedId := None);
      Notify(fuel - 1, s1, valueChanged, idChanged)
  }

  /** The tail both selection setters share: notify about the text, then about the ID. */
  function Notify(fuel: nat, s: State, valueChanged: bool, idChanged: bool): (r: State)
    decreases fuel, 3
    ensures r.schemes == s.schemes
    ensures r.isRelative ==> s.isRelative
  {
    var s1 := if valueChanged then RaisePropertyChanged(fuel, s, SelectedSchemaValueProperty) else s;
    if idChanged then RaisePropertyChanged(fuel, s1, SelectedSchemaIdProperty) else s1
  }

  /**
   * `RaisePropertyChanged` for the two names the setters pass. A text
   * notification re-selects by the row matching the selected text. An ID
   * notification with an existing row copies the row's text into the
   * current text and the selected text; with no ID it clears the current text
   * if it equals the selected text up to case, then clears the selection.
   * The getters never return null, so the handler's null tests always come out
   * the same way: `value == null` never holds, and `x != null` and `y != null`
   * always do.
   */
  function RaisePropertyChanged(fuel: nat, s: State, p: Property): (r: State)
    decreases fuel, 2
    ensures r.schemes == s.schemes
    ensures r.isRelative ==> s.isRelative
  {
    if fuel == 0 then s
    else match p
      case SelectedSchemaValueProperty =>
        var (s1, value) := GetSelectedSchemaValue(s);
        (match FirstByValue(s1.schemes, value)
         case None => SetSelectedSchemaId(fuel - 1, s1, None)
         case Some(row) => SetSelectedSchemaId(fuel - 1, s1, Some(row.id)))
      case SelectedSchemaIdProperty =>
        var (s1, id) := GetSelectedSchemaId(s);
        if id.Some? then
          (match FirstById(s1.schemes, id.value)
           case None => SetSelectedSchemaId(fuel - 1, s1, None)
           case Some(row) =>
             var s2 := SetCurrentSchemaValue(fuel - 1, s1, Some(row.value));
             SetSelectedSchemaValue(fuel - 1, s2, Some(row.value)))
        else
          var x := s1.current;
          var (s2, y) := GetSelectedSchemaValue(s1);
          var s3 := if EqualsIgnoreCase(x, y) then SetCurrentSchemaValue(fuel - 1, s2, None) else s2;
          SetSelectedSchemaValue(fuel - 1, s3, None)
  }

  /**
   * The constructor: the registry is created and seeded, then the scheme of
   * the URI builder is assigned to `CurrentSchemaValue`.
   */
  function Construct(fuel: nat, scheme: string): (r: State)
    ensures r.schemes == Create() && !r.isRelative
  {
    SetCurrentSchemaValue(fuel, FirstReadOfCurrent(Create()), Some(scheme))
  }
}

=== FILE: scheme_table.dfy ===
/**
 * The registry of URI schemes (`UriSchemeTable`): an ordered table of rows with
 * an auto-increment, read-only, unique `ID` column that is the primary key and
 * a read-only `Value` column holding the scheme text. The constructor seeds ten
 * built-in schemes; those rows cannot be deleted and the table cannot be cleared.
 *
 * The `Value` column is NOT unique: the constructor sets the unique flag on the
 * `ID` column a second time instead. So several rows may carry the same text,
 * and every lookup by text is "the first matching row in row order".
 */
module SchemeTable {
  import opened Optional
  import opened Text

  /** One row: the `ID` and `Value` columns. */
  datatype Row = Row(id: int, value: string)

  /**
   * The rows in insertion order, the next auto-increment value, and the rows
   * the constructor created (`KnownSchemes`).
   */
  datatype Table = Table(rows: seq<Row>, nextId: int, known: seq<Row>)

  datatype TableError =
    | KnownRowsCannotBeRemoved
    | RowNotInTable
    | ColumnIsReadOnly

  /** `DataColumn.AutoIncrementSeed` and `AutoIncrementStep`, left at their defaults. */
  const AutoIncrementSeed: int := 0
  const AutoIncrementStep: int := 1

  /** `Uri.UriSchemeHttp` ... `Uri.UriSchemeGopher`, in the constructor's order. */
  const BuiltInSchemes: seq<string> :=
    ["http", "https", "file", "net.pipe", "net.tcp", "ftp", "nntp", "mailto", "news", "gopher"]

  predicate IdsIncreasing(rows: seq<Row>) {
    forall i, j :: 0 <= i < j < |rows| ==> rows[i].id < rows[j].id
  }

  /**
   * What the column constraints and the delete/clear hooks maintain: IDs are
   * distinct and increase in row order, every ID was handed out by the counter,
   * and the built-in rows are still present.
   */
  predicate WellFormed(t: Table) {
    && IdsIncreasing(t.rows)
    && AutoIncrementSeed <= t.nextId
    && (forall i :: 0 <= i < |t.rows| ==> AutoIncrementSeed <= t.rows[i].id < t.nextId)
    && (forall k :: k in t.known ==> k in t.rows)
  }

  /**
   * The scheme texts are usable as lookup keys: none is empty and none carries
   * surrounding white space. The built-in rows satisfy this; the table itself
   * does not enforce it.
   */
  predicate TextsTrimmed(t: Table) {
    forall r :: r in t.rows ==> r.value != "" && IsTrimmed(r.value)
  }

  // ---------------------------------------------------------------------------
  // Insertion

  /** `NewRow()` + `Rows.Add(row)`: the new row gets the next auto-increment ID. */
  function Insert(t: Table, value: string): (r: Table)
    ensures |r.rows| == |t.rows| + 1 && r.rows[..|t.rows|] == t.rows
    ensures r.rows[|t.rows|] == Row(t.nextId, value)
    ensures r.nextId > t.nextId && r.known == t.known
    ensures WellFormed(t) ==> WellFormed(r)
    ensures WellFormed(t) ==> forall i :: 0 <= i < |t.rows| ==> r.rows[i].id < r.rows[|t.rows|].id
  {
    var r := Table(t.rows + [Row(t.nextId, value)], t.nextId + AutoIncrementStep, t.known);
    InsertKeepsWellFormed(t, value, r);
    r
  }

  lemma InsertKeepsWellFormed(t: Table, value: string, r: Table)
    requires r.rows == t.rows + [Row(t.nextId, value)]
    requires r.nextId == t.nextId + AutoIncrementStep && r.known == t.known
    ensures WellFormed(t) ==> WellFormed(r)
  {
    if WellFormed(t) {
      assert forall k :: k in t.rows ==> k in r.rows;
      forall i | 0 <= i < |r.rows| ensures AutoIncrementSeed <= r.rows[i].id < r.nextId {
        if i < |t.rows| { assert r.rows[i] == t.rows[i]; }
      }
      forall i, j | 0 <= i < j < |r.rows| ensures r.rows[i].id < r.rows[j].id {
        assert r.rows[i] == t.rows[i];
        if j < |t.rows| {
          assert r.rows[j] == t.rows[j];
        }
      }
    }
  }

  function InsertAll(t: Table, values: seq<string>): (r: Table)
    ensures |r.rows| == |t.rows| + |values|
    ensures r.rows[..|t.rows|] == t.rows
    ensures forall i :: 0 <= i < |values| ==> r.rows[|t.rows| + i] == Row(t.nextId + i, values[i])
    ensures r.nextId == t.nextId + |values|
    ensures r.known == t.known
    ensures WellFormed(t) ==> WellFormed(r)
    decreases |values|
  {
    if values == [] then t else InsertAll(Insert(t, values[0]), values[1..])
  }

  /**
   * A fresh table after inserting the given texts one by one and recording the
   * inserted rows as known rows, stated in closed form; `SeedingInsertsInOrder`
   * shows that inserting row by row gives exactly this table.
   */
  function Seeded(names: seq<string>): (r: Table)
    ensures |r.rows| == |names| && r.nextId == |names|
    ensures forall i :: 0 <= i < |names| ==> r.rows[i] == Row(i, names[i])
    ensures r.known == r.rows && WellFormed(r)
  {
    var rows := seq(|names|, i requires 0 <= i < |names| => Row(i, names[i]));
    Table(rows, AutoIncrementSeed + |names| * AutoIncrementStep, rows)
  }

  /** The constructor's insertion loop produces the closed form above. */
  lemma SeedingInsertsInOrder(names: seq<string>, e: Table)
    requires e == Table([], AutoIncrementSeed, [])
    ensures InsertAll(e, names).(known := InsertAll(e, names).rows) == Seeded(names)
  {
    var t := InsertAll(e, names);
    SeededRows(names, e, t);
    assert t.rows == Seeded(names).rows;
  }

  /**
   * The constructor: the ten built-in schemes in order, IDs 0 to 9, all of them
   * recorded as known rows.
   */
  function Create(): (r: Table)
    ensures |r.rows| == 10
    ensures forall i :: 0 <= i < 10 ==> r.rows[i] == Row(i, BuiltInSchemes[i])
    ensures r.known == r.rows && r.nextId == 10
    ensures WellFormed(r) && TextsTrimmed(r)
  {
    var t := Seeded(BuiltInSchemes);
    SeededTextsTrimmed(t);
    t
  }

  lemma SeededRows(names: seq<string>, e: Table, t: Table)
    requires e.rows == [] && e.nextId == AutoIncrementSeed && t == InsertAll(e, names)
    ensures |t.rows| == |names| && t.nextId == |names|
    ensures forall i :: 0 <= i < |names| ==> t.rows[i] == Row(i, names[i])
  {
    forall i | 0 <= i < |names| ensures t.rows[i] == Row(i, names[i]) {
      var j := |e.rows| + i;
      assert j == i && t.rows[j] == Row(e.nextId + i, names[i]);
    }
  }

  lemma SeededTextsTrimmed(t: Table)
    requires |t.rows| == |BuiltInSchemes|
    requires forall i :: 0 <= i < |BuiltInSchemes| ==> t.rows[i].value == BuiltInSchemes[i]
    ensures TextsTrimmed(t)
  {
    BuiltInsTrimmed();
    forall r | r in t.rows ensures r.value != "" && IsTrimmed(r.value) {
      var i :| 0 <= i < |t.rows| && t.rows[i] == r;
      assert r.value in BuiltInSchemes;
    }
  }

  lemma BuiltInsTrimmed()
    ensures forall v :: v in BuiltInSchemes ==> v != "" && IsTrimmed(v)
  {
    forall v | v in BuiltInSchemes ensures v != "" && IsTrimmed(v) {
      // Every built-in name starts and ends with a lower-case letter.
      assert v != "" && 'a' <= v[0] <= 'z' && 'a' <= v[|v| - 1] <= 'z';
    }
  }

  /** Adding a custom scheme: any text is accepted, duplicates included. */
  function Add(t: Table, value: string): (r: Result<Table, TableError>)
    ensures r.Ok?
    ensures |r.value.rows| == |t.rows| + 1 && r.value.rows[..|t.rows|] == t.rows
    ensures r.value.rows[|t.rows|] == Row(t.nextId, value)
    ensures WellFormed(t) ==> WellFormed(r.value)
    ensures WellFormed(t) ==> forall i :: 0 <= i < |t.rows| ==> t.rows[i].id < r.value.rows[|t.rows|].id
  {
    Ok(Insert(t, value))
  }

  // ---------------------------------------------------------------------------
  // Lookups

  /** Index of the first row whose text equals `key` after ASCII case folding. */
  function FirstValueIndex(rows: seq<Row>, key: string): (r: Option<nat>)
    ensures r.Some? ==> r.value < |rows| && Fold(rows[r.value].value) == key
    ensures r.Some? ==> forall j :: 0 <= j < r.value ==> Fold(rows[j].value) != key
    ensures r.None? ==> forall j :: 0 <= j < |rows| ==> Fold(rows[j].value) != key
  {
    if rows == [] then None
    else if Fold(rows[0].value) == key then Some(0)
    else match FirstValueIndex(rows[1..], key)
      case None => None
      case Some(k) => Some(k + 1)
  }

  /** Index of the first row with the given ID. */
  function FirstIdIndex(rows: seq<Row>, id: int): (r: Option<nat>)
    ensures r.Some? ==> r.value < |rows| && rows[r.value].id == id
    ensures r.Some? ==> forall j :: 0 <= j < r.value ==> rows[j].id != id
    ensures r.None? ==> forall j :: 0 <= j < |rows| ==> rows[j].id != id
  {
    if rows == [] then None
    else if rows[0].id == id then Some(0)
    else match FirstIdIndex(rows[1..], id)
      case None => None
      case Some(k) => Some(k + 1)
  }

  /**
   * `GetAllSchemes().Where(s => string.Equals(s.Value, text, InvariantCultureIgnoreCase)).First()`,
   * or `None` where the C# gets an empty sequence.
   */
  function FirstByValue(t: Table, text: string): (r: Option<Row>)
    ensures r.Some? ==> r.value in t.rows && EqualsIgnoreCase(r.value.value, text)
    ensures r.Some? ==>
      exists i :: 0 <= i < |t.rows| && t.rows[i] == r.value &&
        forall j :: 0 <= j < i ==> !EqualsIgnoreCase(t.rows[j].value, text)
    ensures r.None? ==> forall row :: row in t.rows ==> !EqualsIgnoreCase(row.value, text)
  {
    match FirstValueIndex(t.rows, Fold(text))
    case None => None
    case Some(i) =>
      assert forall j :: 0 <= j < i ==> !EqualsIgnoreCase(t.rows[j].value, text);
      Some(t.rows[i])
  }

  /** `GetAllSchemes().Where(s => s.ID == id).First()`, or `None`. */
  function FirstById(t: Table, id: int): (r: Option<Row>)
    ensures r.Some? ==> r.value in t.rows && r.value.id == id
    ensures r.None? ==> forall row :: row in t.rows ==> row.id != id
  {
    match FirstIdIndex(t.rows, id)
    case None => None
    case Some(i) => Some(t.rows[i])
  }

  /** The ID of an optional row. */
  function IdOf(r: Option<Row>): Option<int> {
    match r
    case None => None
    case Some(row) => Some(row.id)
  }

  /** The first index with a property is the one before which nothing has it. */
  lemma {:induction false} FirstValueIndexAt(rows: seq<Row>, key: string, i: nat)
    requires i < |rows| && Fold(rows[i].value) == key
    requires forall j :: 0 <= j < i ==> Fold(rows[j].value) != key
    ensures FirstValueIndex(rows, key) == Some(i)
  {
    if i > 0 {
      FirstValueIndexAt(rows[1..], key, i - 1);
    }
  }

  lemma {:induction false} FirstIdIndexAt(rows: seq<Row>, id: int, i: nat)
    requires i < |rows| && rows[i].id == id
    requires forall j :: 0 <= j < i ==> rows[j].id != id
    ensures FirstIdIndex(rows, id) == Some(i)
  {
    if i > 0 {
      FirstIdIndexAt(rows[1..], id, i - 1);
    }
  }

  /** Rows appended after a match do not change which row is found first. */
  lemma {:induction false} FirstValueIndexAppend(rows: seq<Row>, extra: seq<Row>, key: string)
    requires FirstValueIndex(rows, key).Some?
    ensures FirstValueIndex(rows + extra, key) == FirstValueIndex(rows, key)
  {
    var i := FirstValueIndex(rows, key).value;
    FirstValueIndexAt(rows + extra, key, i);
  }

  /** Looking a row up by its own ID finds that very row: IDs are unique. */
  lemma FindOwnId(t: Table, row: Row)
    requires IdsIncreasing(t.rows) && row in t.rows
    ensures FirstById(t, row.id) == Some(row)
  {
    var i :| 0 <= i < |t.rows| && t.rows[i] == row;
    FirstIdIndexAt(t.rows, row.id, i);
  }

  /** The ID column is a key: two different rows never share an ID. */
  lemma IdsIdentifyRows(t: Table, a: Row, b: Row)
    requires IdsIncreasing(t.rows) && a in t.rows && b in t.rows && a != b
    ensures a.id != b.id
  {
    FindOwnId(t, a);
    FindOwnId(t, b);
  }

  /**
   * Every row's own text finds a row; the row found is the first one with that
   * text up to case, and looking up its text finds it again.
   */
  lemma FirstMatchIsStable(t: Table, row: Row)
    requires row in t.rows
    ensures FirstByValue(t, row.value).Some?
    ensures EqualsIgnoreCase(FirstByValue(t, row.value).value.value, row.value)
    ensures FirstByValue(t, FirstByValue(t, row.value).value.value) == FirstByValue(t, row.value)
  {
    var i :| 0 <= i < |t.rows| && t.rows[i] == row;
    assert Fold(t.rows[i].value) == Fold(row.value);
  }

  /** Lookups by text only see the text up to ASCII case. */
  lemma LookupIgnoresCase(t: Table, a: string, b: string)
    requires EqualsIgnoreCase(a, b)
    ensures FirstByValue(t, a) == FirstByValue(t, b)
  {
  }

  // ---------------------------------------------------------------------------
  // Deletion, clearing and cell updates

  /**
   * Deleting the row with the given ID: `OnRowDeleting` refuses the rows the
   * constructor created; any other row is removed and the order of the rest kept.
   */
  function Delete(t: Table, id: int): (r: Result<Table, TableError>)
    requires WellFormed(t)
    ensures r.Err? <==> FirstById(t, id).None? || FirstById(t, id).value in t.known
    ensures r.Err? && FirstById(t, id).Some? ==> r.error == KnownRowsCannotBeRemoved
    ensures r.Ok? ==> |r.value.rows| == |t.rows| - 1
    ensures r.Ok? ==> forall row :: row in r.value.rows <==> row in t.rows && row.id != id
    ensures r.Ok? ==> WellFormed(r.value) && r.value.nextId == t.nextId && r.value.known == t.known
  {
    match FirstIdIndex(t.rows, id)
    case None => Err(RowNotInTable)
    case Some(i) =>
      if t.rows[i] in t.known then Err(KnownRowsCannotBeRemoved)
      else
        var rows := t.rows[..i] + t.rows[i + 1..];
        RemoveAtKeepsOthers(t.rows, i);
        Ok(t.(rows := rows))
  }

  lemma RemoveAtKeepsOthers(rows: seq<Row>, i: nat)
    requires IdsIncreasing(rows) && i < |rows|
    ensures IdsIncreasing(rows[..i] + rows[i + 1..])
    ensures forall row :: row in rows[..i] + rows[i + 1..] <==> row in rows && row.id != rows[i].id
  {
    var rest := rows[..i] + rows[i + 1..];
    assert forall j :: 0 <= j < |rest| ==> rest[j] == if j < i then rows[j] else rows[j + 1];
    forall row ensures row in rest <==> row in rows && row.id != rows[i].id {
      if row in rows && row.id != rows[i].id {
        var j :| 0 <= j < |rows| && rows[j] == row;
        if j < i { assert rest[j] == row; } else { assert rest[j - 1] == row; }
      }
    }
  }

  /** `OnTableClearing` always throws: the table can never be emptied. */
  function Clear(t: Table): (r: Result<Table, TableError>)
    ensures r.Err? && r.error == KnownRowsCannotBeRemoved
  {
    Err(KnownRowsCannotBeRemoved)
  }

  /** Assigning a cell of a stored row: both columns are read-only. */
  function UpdateCell(t: Table, id: int, value: string): (r: Result<Table, TableError>)
    ensures r.Err?
    ensures FirstById(t, id).Some? <==> r.error == ColumnIsReadOnly
  {
    match FirstById(t, id)
    case None => Err(RowNotInTable)
    case Some(_) => Err(ColumnIsReadOnly)
  }

  /**
   * `GetAllSchemes()`: the rows of the table, as stored, so in ascending ID
   * order and with every built-in row among them.
   */
  function AllSchemes(t: Table): (r: seq<Row>)
    ensures WellFormed(t) ==> IdsIncreasing(r) && forall k :: k in t.known ==> k in r
  {
    t.rows
  }

  /** The rows are listed in insertion order: inserted texts come last, in order, with fresh IDs. */
  lemma AllSchemesInInsertionOrder(t: Table, names: seq<string>)
    ensures AllSchemes(InsertAll(t, names)) ==
      AllSchemes(t) + seq(|names|, i requires 0 <= i < |names| => Row(t.nextId + i, names[i]))
  {
    var r := InsertAll(t, names).rows;
    var added := seq(|names|, i requires 0 <= i < |names| => Row(t.nextId + i, names[i]));
    assert r[..|t.rows|] == t.rows;
    forall j | 0 <= j < |r| ensures r[j] == (t.rows + added)[j] {
      if j >= |t.rows| {
        var i := j - |t.rows|;
        assert r[|t.rows| + i] == Row(t.nextId + i, names[i]);
      } else {
        assert r[j] == r[..|t.rows|][j];
      }
    }
  }

  // ---------------------------------------------------------------------------
  // Any sequence of operations

  datatype TableOp =
    | AddRow(value: string)
    | DeleteRow(id: int)
    | ClearRows
    | UpdateRow(id: int, value: string)

  /** One operation by the host; a failed one leaves the table as it was. */
  function Apply(t: Table, op: TableOp): Table
    requires WellFormed(t)
  {
    var r := match op
      case AddRow(v) => Add(t, v)
      case DeleteRow(id) => Delete(t, id)
      case ClearRows => Clear(t)
      case UpdateRow(id, v) => UpdateCell(t, id, v);
    if r.Ok? then r.value else t
  }

  /**
   * No operation rewrites a stored row: every row of the result either was in
   * the table already, unchanged, or is a new row with a fresh, larger ID; and
   * the known rows survive.
   */
  lemma ApplyKeepsRows(t: Table, op: TableOp)
    requires WellFormed(t)
    ensures WellFormed(Apply(t, op))
    ensures Apply(t, op).known == t.known && Apply(t, op).nextId >= t.nextId
    ensures forall row :: row in Apply(t, op).rows && row.id < t.nextId ==> row in t.rows
    ensures forall row :: row in t.rows && !(op.DeleteRow? && row.id == op.id) ==> row in Apply(t, op).rows
  {
    if op.AddRow? {
      var r := Apply(t, op);
      assert r.rows == t.rows + [Row(t.nextId, op.value)];
    }
  }

  /**
   * Clearing and cell assignment are always refused, so they leave the table
   * exactly as it was: no row's ID or text ever changes and no row goes away.
   */
  lemma RefusedOpsChangeNothing(t: Table, op: TableOp)
    requires WellFormed(t) && (op.ClearRows? || op.UpdateRow?)
    ensures Apply(t, op) == t
    ensures op.UpdateRow? && FirstById(t, op.id).Some? ==> UpdateCell(t, op.id, op.value) == Err(ColumnIsReadOnly)
  {
  }

  function Run(t: Table, ops: seq<TableOp>): Table
    requires WellFormed(t)
    decreases |ops|
  {
    if ops == [] then t
    else
      ApplyKeepsRows(t, ops[0]);
      Run(Apply(t, ops[0]), ops[1..])
  }

  /**
   * Whatever the host does to a fresh table, the ten built-in rows stay in it,
   * with their original IDs and texts, so the table is never empty.
   */
  lemma {:induction false} BuiltInsPersist(t: Table, ops: seq<TableOp>)
    requires WellFormed(t)
    ensures WellFormed(Run(t, ops)) && Run(t, ops).known == t.known
    ensures forall k :: k in t.known ==> k in Run(t, ops).rows
    decreases |ops|
  {
    if ops != [] {
      ApplyKeepsRows(t, ops[0]);
      BuiltInsPersist(Apply(t, ops[0]), ops[1..]);
    }
  }

  /**
   * The `Value` column is not unique: a text that is already present, in any
   * case, can be added again, and lookups by text still find the earlier row.
   */
  lemma DuplicateTextShadowed(t: Table, row: Row, text: string)
    requires WellFormed(t) && row in t.rows && EqualsIgnoreCase(text, row.value)
    ensures Add(t, text).Ok?
    ensures FirstByValue(Add(t, text).value, text) == FirstByValue(t, text)
    ensures FirstByValue(t, text).Some? && FirstByValue(t, text).value.id != Add(t, text).value.rows[|t.rows|].id
  {
    var i :| 0 <= i < |t.rows| && t.rows[i] == row;
    assert Fold(t.rows[i].value) == Fold(text);
    var k := FirstValueIndex(t.rows, Fold(text));
    FirstValueIndexAppend(t.rows, [Row(t.nextId, text)], Fold(text));
    assert Add(t, text).value.rows == t.rows + [Row(t.nextId, text)];
    assert t.rows[k.value].id < t.nextId;
  }
}

=== FILE: settled.dfy ===
/**
 * The net effect of each `UriParserDataSet` setter once all the notifications
 * it triggers have run, written as one closed-form transition per setter.
 *
 * These are the definitions the contracts talk about; the equivalence lemmas
 * show that each agrees with the call-by-call transcription of the setters.
 * Every transition requires `Consistent`, which every reachable state has.
 */
module Settled {
  import opened Optional
  import opened Text
  import opened SchemeTable
  import opened ParserState

  /**
   * `r` is `s` after the message setter ran for `r`'s text: the message is the
   * one derived from that text, and the validity flag was assigned only if that
   * message differs from what the getter returned, which is the cached message
   * or, with none cached, the message derived from the new text itself.
   */
  predicate TextStored(s: State, r: State) {
    var m := DerivedMessage(r.current, r.isRelative);
    && r.message == Some(m)
    && r.isValid == (if EffectiveMessage(s.(current := r.current)) == m then s.isValid else m == "")
  }

  /** The text, message and validity flag are as they were. */
  predicate TextKept(s: State, r: State) {
    r.current == s.current && r.message == s.message && r.isValid == s.isValid
  }

  /** A selected ID names a registry row whose text is the selected text. */
  predicate SelectsRow(s: State) {
    s.selectedId.Some? ==>
      s.selectedValue.Some? && Row(s.selectedId.value, s.selectedValue.value) in s.schemes.rows
  }

  /** The current text is replaced by `text` and the message setter runs for it. */
  function StoreText(s: State, text: string): (r: State)
    ensures r.current == text && TextStored(s, r)
    ensures r.(current := s.current, message := s.message, isValid := s.isValid) == s
  {
    var m := DerivedMessage(text, s.isRelative);
    var before := EffectiveMessage(s.(current := text));
    s.(current := text, message := Some(m), isValid := if before == m then s.isValid else m == "")
  }

  function Select(s: State, row: Row): State {
    s.(selectedValue := Some(row.value), selectedId := Some(row.id))
  }

  function ClearSelection(s: State): State {
    s.(selectedValue := None, selectedId := None)
  }

  /**
   * The first row whose text equals `row`'s up to case: lookups by text land on
   * it, so it is the row the notifications settle on.
   */
  function Canonical(t: Table, row: Row): (k: Row)
    requires row in t.rows
    ensures k in t.rows && EqualsIgnoreCase(k.value, row.value)
    ensures FirstByValue(t, k.value) == Some(k) && FirstByValue(t, row.value) == Some(k)
  {
    FirstMatchIsStable(t, row);
    FirstByValue(t, row.value).value
  }

  /**
   * What an ID notification does once `k` is selected: the current text is
   * assigned `k`'s text, which stores it and sets the message if it differs.
   */
  function Follow(s: State, k: Row): (r: State)
    ensures r.selectedValue == Some(k.value) && r.selectedId == Some(k.id)
    ensures r.current == k.value
    ensures r.schemes == s.schemes && r.isRelative == s.isRelative
    ensures s.current == k.value ==> r.message == s.message && r.isValid == s.isValid
    ensures s.current != k.value ==> TextStored(s, r)
  {
    var s1 := Select(s, k);
    if s.current == k.value then s1 else StoreText(s1, k.value)
  }

  /**
   * Selecting a registry row, with or without the current text taking its
   * spelling, keeps a consistent state consistent and a cached message current.
   */
  lemma SelectingKeepsInvariant(s: State, k: Row, r: State)
    requires Consistent(s) && k in s.schemes.rows
    requires r == Select(s, k) || r == Follow(s, k) || r == StoreText(Select(s, k), k.value)
    ensures Consistent(r) && SelectsRow(r) && r.schemes == s.schemes
    ensures Invariant(s) ==> Invariant(r)
    ensures TextKept(s, r) || TextStored(s, r)
  {
    RowTextUsable(s.schemes, k);
  }

  lemma RowTextUsable(t: Table, row: Row)
    requires SchemesUsable(t) && row in t.rows
    ensures row.value != "" && IsTrimmed(row.value) && !IsBlank(row.value)
  {
    assert !IsWhiteSpace(row.value[0]);
  }

  /** A registry text is its own trim, so looking up its trim finds the same row. */
  lemma LookupTrimmedRow(t: Table, row: Row)
    requires SchemesUsable(t) && row in t.rows
    ensures FirstByValue(t, Trim(row.value)) == FirstByValue(t, row.value)
  {
    TrimOfTrimmed(row.value);
  }

  /** No registry text matches the empty string, so an empty text selects nothing. */
  lemma NoRowMatchesEmpty(t: Table)
    requires SchemesUsable(t)
    ensures FirstByValue(t, "") == None
  {
    if FirstByValue(t, "").Some? {
      EmptyOnlyEqualsEmpty(FirstByValue(t, "").value.value);
    }
  }

  /**
   * `SelectedSchemaId = null`, or an ID with no row. The notifications re-read
   * the selection through the lazy getter, which derives it from the current
   * text again: if something was selected and the text names a registry row,
   * that row ends up selected and the text takes its spelling; otherwise the
   * selection ends up cleared. The current text is never cleared.
   */
  function Deselect(s: State): (r: State)
    requires Consistent(s)
    ensures Consistent(r) && SelectsRow(r) && r.schemes == s.schemes
    ensures r.selectedId == if s.selectedId.None? then None else IdOf(FirstByValue(s.schemes, Trim(s.current)))
    ensures r.selectedId.None? ==> r.selectedValue.None? && r == ClearSelection(s)
    ensures r.current == s.current || TextStored(s, r)
    ensures r.current != s.current ==> EqualsIgnoreCase(r.current, Trim(s.current))
    ensures MessageCurrent(s) ==> MessageCurrent(r)
  {
    if s.selectedId.None? then ClearSelection(s)
    else match FirstByValue(s.schemes, Trim(s.current))
      case None => ClearSelection(s)
      case Some(k) =>
        RowTextUsable(s.schemes, k);
        Follow(s, k)
  }

  /**
   * `SelectedSchemaId = id` for the ID of `row`. The row is selected; when the
   * selection changes, the notifications move it to the first row with the
   * same text up to case, and the current text to that row's spelling.
   */
  function SelectRow(s: State, row: Row): (r: State)
    requires Consistent(s) && row in s.schemes.rows
    ensures Consistent(r) && SelectsRow(r) && r.schemes == s.schemes
    ensures r.selectedId.Some? && EqualsIgnoreCase(r.selectedValue.value, row.value)
    ensures r.selectedId != Some(row.id) ==> r.selectedValue == Some(r.current)
    ensures s.selectedId.Some? && s.selectedId.value != row.id ==> r.selectedValue == Some(r.current)
    ensures r.current == s.current || r.selectedValue == Some(r.current)
    ensures TextKept(s, r) || TextStored(s, r)
  {
    var valueChanged := s.selectedValue.Some? && s.selectedValue.value != row.value;
    var idChanged := s.selectedId.Some? && s.selectedId.value != row.id;
    var k := Canonical(s.schemes, row);
    var r :=
      if !valueChanged && !idChanged then Select(s, row)
      else if k == row then (if idChanged then Follow(s, k) else Select(s, k))
      else if valueChanged || s.current == row.value then Follow(s, k)
      else StoreText(Select(s, k), k.value);
    if !valueChanged && !idChanged then
      SelectingKeepsInvariant(s, row, r);
      r
    else
      SelectingKeepsInvariant(s, k, r);
      r
  }

  /** `SelectedSchemaId = id`: `SelectRow` for a known ID, `Deselect` otherwise. */
  function SelectById(s: State, id: Option<int>): (r: State)
    requires Consistent(s)
    ensures Consistent(r) && SelectsRow(r) && r.schemes == s.schemes
    ensures id.Some? && FirstById(s.schemes, id.value).Some? ==>
      r.selectedId.Some? && EqualsIgnoreCase(r.selectedValue.value, FirstById(s.schemes, id.value).value.value)
    ensures (id.None? || FirstById(s.schemes, id.value).None?) ==> r == Deselect(s)
    ensures id.Some? && FirstById(s.schemes, id.value).Some? && s.selectedId.Some? && s.selectedId != id ==>
      r.selectedValue == Some(r.current)
    ensures Invariant(s) ==> Invariant(r)
    ensures r.current == s.current || r.selectedValue == Some(r.current)
    ensures TextKept(s, r) || TextStored(s, r)
  {
    match (if id.Some? then FirstById(s.schemes, id.value) else None)
    case None => Deselect(s)
    case Some(row) => SelectRow(s, row)
  }

  /**
   * `SelectedSchemaValue = value`: the first row matching the trimmed text is
   * selected, and if that changes the ID, the current text takes the row's
   * spelling. With no matching row it behaves as `Deselect`.
   */
  function SelectByValue(s: State, value: Option<string>): (r: State)
    requires Consistent(s)
    ensures Consistent(r) && SelectsRow(r) && r.schemes == s.schemes
    ensures Invariant(s) ==> Invariant(r)
    ensures var found := FirstByValue(s.schemes, if value.None? then "" else Trim(value.value));
      && (found.None? ==> r == Deselect(s))
      && (found.Some? ==> r.selectedValue == Some(found.value.value) && r.selectedId == Some(found.value.id))
      && (found.Some? ==> r.current == s.current || r.current == found.value.value)
    ensures var found := FirstByValue(s.schemes, if value.None? then "" else Trim(value.value));
      found.Some? ==>
        r.current == if s.selectedId.Some? && s.selectedId.value != found.value.id then found.value.value else s.current
    ensures TextKept(s, r) || TextStored(s, r)
  {
    var v := if value.None? then "" else Trim(value.value);
    match FirstByValue(s.schemes, v)
    case None => Deselect(s)
    case Some(k) =>
      var r := if s.selectedId.Some? && s.selectedId.value != k.id then Follow(s, k) else Select(s, k);
      SelectingKeepsInvariant(s, k, r);
      r
  }

  /**
   * `CurrentSchemaValue = value`. A blank value clears the text and the
   * selection; any other is stored verbatim and selects the first row matching
   * it after trimming, and then the text may be re-cased to that row's spelling.
   * Storing what is already there does nothing at all. Otherwise the message
   * is the one derived from the final text.
   */
  function SetText(s: State, value: Option<string>): (r: State)
    requires Consistent(s)
    ensures Consistent(r) && r.schemes == s.schemes && (r == s || SelectsRow(r))
    ensures Invariant(s) ==> Invariant(r)
    ensures IsNullOrWhiteSpace(value) && s.current == "" ==> r == s
    ensures IsNullOrWhiteSpace(value) && s.current != "" ==>
      r.current == "" && r.selectedValue.None? && r.selectedId.None? && TextStored(s, r)
    ensures !IsNullOrWhiteSpace(value) && s.current == value.value ==> r == s
    ensures !IsNullOrWhiteSpace(value) && s.current != value.value ==>
      var found := FirstByValue(s.schemes, Trim(value.value));
      && TextStored(s, r)
      && r.selectedId == IdOf(found)
      && (found.Some? ==> r.selectedValue == Some(found.value.value))
      && (found.None? ==> r.selectedValue.None? && r.current == value.value)
      && (r.current == value.value || (found.Some? && r.current == found.value.value))
  {
    if IsNullOrWhiteSpace(value) then
      if s.current == "" then s else StoreText(ClearSelection(s), "")
    else if s.current == value.value then s
    else
      var s1 := s.(current := value.value);
      var found := FirstByValue(s.schemes, Trim(value.value));
      var s2 := SelectById(s1, IdOf(found));
      SelectFirstMatch(s1, found);
      StoredOnce(s, s1, s2);
      StoreText(s2, s2.current)
  }

  /**
   * Which text `CurrentSchemaValue = value` leaves for a changed non-blank
   * value: the value as given, unless the first row matching its trim has a
   * different ID from the one selected before, in which case the ID
   * notification re-cases the text to that row's spelling.
   */
  lemma SetTextFinalText(s: State, value: Option<string>)
    requires Consistent(s) && !IsNullOrWhiteSpace(value) && s.current != value.value
    ensures var found := FirstByValue(s.schemes, Trim(value.value));
      SetText(s, value).current ==
        if found.Some? && s.selectedId.Some? && s.selectedId.value != found.value.id
        then found.value.value else value.value
  {
    var found := FirstByValue(s.schemes, Trim(value.value));
    if found.Some? {
      FindOwnId(s.schemes, found.value);
      FirstMatchIsStable(s.schemes, found.value);
      LookupIgnoresCase(s.schemes, found.value.value, Trim(value.value));
    }
  }

  /**
   * Selecting by the ID of the row that matches the current text ends with
   * exactly that row selected, or with nothing selected if no row matches.
   */
  lemma SelectFirstMatch(s: State, found: Option<Row>)
    requires Consistent(s) && found == FirstByValue(s.schemes, Trim(s.current))
    ensures var r := SelectById(s, IdOf(found));
      && r.selectedId == IdOf(found)
      && (found.Some? ==> r.selectedValue == Some(found.value.value))
      && (found.None? ==> r.selectedValue.None? && r.current == s.current)
      && (r.current == s.current || (found.Some? && r.current == found.value.value))
  {
    if found.Some? {
      FindOwnId(s.schemes, found.value);
    }
  }

  /**
   * Running the message setter once more for the final text, after selecting
   * from a state whose text was just replaced, gives the same result as if it
   * had run only once, against the message cached before the replacement.
   */
  lemma StoredOnce(s: State, s1: State, s2: State)
    requires s1 == s.(current := s1.current) && s2.isRelative == s.isRelative
    requires TextKept(s1, s2) || TextStored(s1, s2)
    ensures TextStored(s, StoreText(s2, s2.current))
  {
  }

  /**
   * The constructor: a seeded registry and `CurrentSchemaValue` assigned the
   * scheme of the URI builder.
   */
  function Construct(scheme: string): (r: State)
    ensures Invariant(r) && SelectsRow(r) && r.schemes == Create()
    ensures !IsBlank(scheme) ==> r.selectedId == IdOf(FirstByValue(Create(), Trim(scheme)))
    ensures IsBlank(scheme) ==> r.current == "" && r.selectedId.None?
  {
    var s := FirstReadOfCurrent(Create());
    SetText(s, Some(scheme))
  }
}

=== FILE: text.dfy ===
/**
 * String helpers the validator relies on: .NET white space and `Trim`,
 * `IsNullOrWhiteSpace`, the culture-invariant case-insensitive comparison
 * (modelled as ASCII case folding), and the URI scheme-name grammar of section 3.1 of RFC 3986
 * (`ALPHA *( ALPHA / DIGIT / "+" / "-" / "." )`), which is what
 * `Uri.CheckSchemeName` accepts.
 */
module Text {
  import opened Optional

  /** The characters `char.IsWhiteSpace` accepts. */
  predicate IsWhiteSpace(c: char) {
    || c == ' '
    || ('\t' <= c <= '\r')
    || c == '\U{0085}' || c == '\U{00A0}' || c == '\U{1680}'
    || ('\U{2000}' <= c <= '\U{200A}')
    || c == '\U{2028}' || c == '\U{2029}' || c == '\U{202F}' || c == '\U{205F}'
    || c == '\U{3000}'
  }

  predicate IsBlank(s: string) {
    forall i :: 0 <= i < |s| ==> IsWhiteSpace(s[i])
  }

  /** `string.IsNullOrWhiteSpace`. */
  predicate IsNullOrWhiteSpace(s: Option<string>) {
    s.None? || IsBlank(s.value)
  }

  /** No white space at either end. */
  predicate IsTrimmed(s: string) {
    s == [] || (!IsWhiteSpace(s[0]) && !IsWhiteSpace(s[|s| - 1]))
  }

  function TrimStart(s: string): (r: string)
    ensures |r| <= |s| && r == s[|s| - |r|..]
    ensures IsBlank(s[..|s| - |r|])
    ensures r == [] || !IsWhiteSpace(r[0])
    ensures r == [] <==> IsBlank(s)
  {
    if |s| > 0 && IsWhiteSpace(s[0]) then
      var r := TrimStart(s[1..]);
      TrimStartStep(s, r);
      r
    else s
  }

  /** One leading white-space character more keeps the cut-off prefix blank. */
  lemma TrimStartStep(s: string, r: string)
    requires |s| > 0 && IsWhiteSpace(s[0])
    requires |r| <= |s| - 1 && r == s[1..][|s| - 1 - |r|..]
    requires IsBlank(s[1..][..|s| - 1 - |r|]) && (r == [] <==> IsBlank(s[1..]))
    ensures r == s[|s| - |r|..] && IsBlank(s[..|s| - |r|]) && (r == [] <==> IsBlank(s))
  {
    var p := s[..|s| - |r|];
    var q := s[1..][..|s| - 1 - |r|];
    assert forall i :: 0 < i < |p| ==> p[i] == q[i - 1];
    assert forall i :: 0 < i < |s| ==> s[i] == s[1..][i - 1];
  }

  function TrimEnd(s: string): (r: string)
    ensures |r| <= |s| && r == s[..|r|]
    ensures IsBlank(s[|r|..])
    ensures r == [] || !IsWhiteSpace(r[|r| - 1])
    ensures r == [] <==> IsBlank(s)
  {
    if |s| > 0 && IsWhiteSpace(s[|s| - 1]) then
      var r := TrimEnd(s[..|s| - 1]);
      TrimEndStep(s, r);
      r
    else s
  }

  /** One trailing white-space character more keeps the cut-off suffix blank. */
  lemma TrimEndStep(s: string, r: string)
    requires |s| > 0 && IsWhiteSpace(s[|s| - 1])
    requires |r| <= |s| - 1 && r == s[..|s| - 1][..|r|]
    requires IsBlank(s[..|s| - 1][|r|..]) && (r == [] <==> IsBlank(s[..|s| - 1]))
    ensures r == s[..|r|] && IsBlank(s[|r|..]) && (r == [] <==> IsBlank(s))
  {
    var p := s[|r|..];
    var q := s[..|s| - 1][|r|..];
    assert forall i :: 0 <= i < |q| ==> p[i] == q[i];
    assert forall i :: 0 <= i < |s| - 1 ==> s[i] == s[..|s| - 1][i];
  }

  /** `string.Trim()`: strips leading and trailing white space. */
  function Trim(s: string): (r: string)
    ensures IsTrimmed(r)
    ensures r == [] <==> IsBlank(s)
    ensures |r| <= |s|
  {
    var a := TrimStart(s);
    var b := TrimEnd(a);
    assert b == [] || b[0] == a[0];
    b
  }

  /**
   * What `Trim` keeps: a contiguous piece of the input, with only white space
   * cut off before and after it, and no white space left at either end.
   */
  lemma TrimCutsBlankEnds(s: string)
    ensures exists i, j :: 0 <= i <= j <= |s| && Trim(s) == s[i..j] && IsBlank(s[..i]) && IsBlank(s[j..])
    ensures IsTrimmed(Trim(s)) && (Trim(s) == [] <==> IsBlank(s))
  {
    var a := TrimStart(s);
    var b := TrimEnd(a);
    var i := |s| - |a|;
    var j := i + |b|;
    assert b == s[i..j] && s[j..] == a[|b|..];
  }

  /** Trimming leaves a string without surrounding white space untouched. */
  lemma TrimOfTrimmed(s: string)
    requires IsTrimmed(s)
    ensures Trim(s) == s
  {
    assert TrimStart(s) == s;
    assert TrimEnd(s) == s;
  }

  lemma TrimIdempotent(s: string)
    ensures Trim(Trim(s)) == Trim(s)
  {
    TrimOfTrimmed(Trim(s));
  }

  // ---------------------------------------------------------------------------
  // Case-insensitive comparison

  /** ASCII lower-casing, the model of culture-invariant case folding. */
  function ToLowerAscii(c: char): (r: char)
    ensures 'A' <= c <= 'Z' ==> r as int == c as int + 32
    ensures !('A' <= c <= 'Z') ==> r == c
  {
    if 'A' <= c <= 'Z' then (c as int + 32) as char else c
  }

  function Fold(s: string): (r: string)
    ensures |r| == |s|
    ensures forall i :: 0 <= i < |s| ==> r[i] == ToLowerAscii(s[i])
  {
    seq(|s|, i requires 0 <= i < |s| => ToLowerAscii(s[i]))
  }

  /**
   * Folding yields a text without upper-case ASCII letters that is equal to
   * its input up to case and that folding leaves alone, so every text is
   * compared through one canonical representative.
   */
  lemma FoldNormalizes(s: string)
    ensures forall i :: 0 <= i < |s| ==> !('A' <= Fold(s)[i] <= 'Z')
    ensures Fold(Fold(s)) == Fold(s)
    ensures EqualsIgnoreCase(s, Fold(s))
  {
  }

  /** `string.Equals(a, b, StringComparison.InvariantCultureIgnoreCase)`. */
  predicate EqualsIgnoreCase(a: string, b: string) {
    Fold(a) == Fold(b)
  }

  /** Texts equal up to case have the same length. */
  lemma EqualsIgnoreCaseLength(a: string, b: string)
    requires EqualsIgnoreCase(a, b)
    ensures |a| == |b|
  {
    assert |Fold(a)| == |Fold(b)|;
  }

  /** Texts of different lengths are never equal up to case. */
  lemma DifferentLengthsNeverEqual(a: string, b: string)
    requires |a| != |b|
    ensures !EqualsIgnoreCase(a, b)
  {
    assert |Fold(a)| != |Fold(b)|;
  }

  lemma EmptyOnlyEqualsEmpty(a: string)
    requires EqualsIgnoreCase(a, "")
    ensures a == ""
  {
    EqualsIgnoreCaseLength(a, "");
  }

  // ---------------------------------------------------------------------------
  // Scheme-name grammar

  predicate IsAsciiLetter(c: char) {
    ('a' <= c <= 'z') || ('A' <= c <= 'Z')
  }

  predicate IsAsciiDigit(c: char) {
    '0' <= c <= '9'
  }

  predicate IsSchemeChar(c: char) {
    IsAsciiLetter(c) || IsAsciiDigit(c) || c == '+' || c == '-' || c == '.'
  }

  /** `Uri.CheckSchemeName`: `ALPHA *( ALPHA / DIGIT / "+" / "-" / "." )`. */
  predicate CheckSchemeName(s: string) {
    && |s| > 0
    && IsAsciiLetter(s[0])
    && forall i :: 1 <= i < |s| ==> IsSchemeChar(s[i])
  }

  /**
   * The grammar check as a loop that scans from the last character back to
   * the second; it accepts exactly the texts the grammar describes.
   */
  method IsSchemeName(s: string) returns (ok: bool)
    ensures ok <==> CheckSchemeName(s)
  {
    if |s| == 0 || !IsAsciiLetter(s[0]) {
      return false;
    }
    var i := |s| - 1;
    while i > 0
      invariant 0 <= i < |s|
      invariant forall j :: i < j < |s| ==> IsSchemeChar(s[j])
      decreases i
    {
      if !IsSchemeChar(s[i]) {
        return false;
      }
      i := i - 1;
    }
    return true;
  }

  /** Folding changes only letters, so the grammar does not see letter case. */
  lemma SchemeNameIgnoresCase(a: string, b: string)
    requires EqualsIgnoreCase(a, b)
    ensures CheckSchemeName(a) <==> CheckSchemeName(b)
  {
    EqualsIgnoreCaseLength(a, b);
    assert forall i :: 0 <= i < |a| ==> ToLowerAscii(a[i]) == ToLowerAscii(b[i]) by {
      forall i | 0 <= i < |a| ensures ToLowerAscii(a[i]) == ToLowerAscii(b[i]) {
        assert Fold(a)[i] == Fold(b)[i];
      }
    }
  }

  /** A well-formed scheme name contains no white space, so it is its own trim. */
  lemma SchemeNameIsTrimmed(s: string)
    requires CheckSchemeName(s)
    ensures IsTrimmed(s) && !IsBlank(s) && Trim(s) == s
  {
    assert !IsWhiteSpace(s[0]);
    assert !IsWhiteSpace(s[|s| - 1]) by {
      if |s| > 1 { assert IsSchemeChar(s[|s| - 1]); }
    }
    TrimOfTrimmed(s);
  }

  /** Surrounding white space always fails the grammar. */
  lemma PaddedTextFailsGrammar(s: string)
    requires !IsTrimmed(s)
    ensures !CheckSchemeName(s)
  {
    if CheckSchemeName(s) {
      SchemeNameIsTrimmed(s);
    }
  }
}

=== FILE: validator.dfy ===
/**
 * `UriParserDataSet` as its host sees it: the public setters, the public
 * getters (whose lazy first reads change the state), and edits to the
 * registry through `UriSchemes`. The invariant of `ParserState` holds after
 * construction and after any sequence of these events.
 */
module Validator {
  import opened Optional
  import opened Text
  import opened SchemeTable
  import opened ParserState
  import opened Settled

  /** One thing the host does to the object. */
  datatype Event =
    | AssignCurrent(value: Option<string>)
    | AssignSelectedId(id: Option<int>)
    | AssignSelectedValue(text: Option<string>)
    | ReadMessage
    | ReadSelection
    | EditSchemes(op: TableOp)

  /** Rows the host adds carry a non-empty text without surrounding white space. */
  predicate Admissible(e: Event) {
    e.EditSchemes? && e.op.AddRow? ==> e.op.value != "" && IsTrimmed(e.op.value)
  }

  predicate AllAdmissible(es: seq<Event>) {
    forall i :: 0 <= i < |es| ==> Admissible(es[i])
  }

  /**
   * Reading `SchemeErrorMessage`: in every reachable state the getter returns
   * the message derived from the current text, and caching it keeps the
   * invariant.
   */
  function ReadSchemeErrorMessage(s: State): (r: (State, string))
    requires Invariant(s)
    ensures r.1 == DerivedMessage(s.current, false)
    ensures r.1 == "" <==> !IsBlank(s.current) && CheckSchemeName(s.current)
    ensures r.0 == s.(message := Some(r.1)) && Invariant(r.0)
  {
    GetSchemeErrorMessage(s)
  }

  /**
   * Reading `SelectedSchemaValue` or `SelectedSchemaId`: an unresolved
   * selection is resolved from the current text, which keeps the invariant and
   * the pairing of text and ID.
   */
  function ReadSelectedScheme(s: State): (r: State)
    requires Invariant(s)
    ensures Invariant(r) && r.selectedValue.Some?
    ensures r.(selectedValue := s.selectedValue, selectedId := s.selectedId) == s
    ensures s.selectedValue.None? ==>
      var found := FirstByValue(s.schemes, Trim(s.current));
      && r.selectedId == IdOf(found)
      && r.selectedValue == Some(if found.Some? then found.value.value else "")
    ensures s.selectedValue.Some? ==> r == s
    ensures SelectsRow(s) ==> SelectsRow(r)
  {
    ResolveKeepsInvariant(s);
    ResolveSelection(s)
  }

  lemma ResolveKeepsInvariant(s: State)
    requires Invariant(s)
    ensures var r := ResolveSelection(s);
      && Invariant(r) && (SelectsRow(s) ==> SelectsRow(r))
      && (s.selectedValue.None? ==> r.selectedId == IdOf(FirstByValue(s.schemes, Trim(s.current))))
  {
    var r := ResolveSelection(s);
    assert r.schemes == s.schemes && r.current == s.current && r.isRelative == s.isRelative && r.message == s.message;
    var found := FirstByValue(s.schemes, Trim(s.current));
    if s.selectedValue.None? && found.Some? {
      assert found.value in s.schemes.rows;
      assert found.value.value != "";
    }
  }

  /** Registry edits keep the registry usable and never lose a built-in row. */
  lemma EditKeepsSchemesUsable(t: Table, op: TableOp)
    requires SchemesUsable(t)
    requires op.AddRow? ==> op.value != "" && IsTrimmed(op.value)
    ensures SchemesUsable(Apply(t, op))
    ensures Apply(t, op).known == t.known
  {
    ApplyKeepsRows(t, op);
    var r := Apply(t, op);
    if op.AddRow? {
      assert r.rows == t.rows + [Row(t.nextId, op.value)];
    } else if op.DeleteRow? && Delete(t, op.id).Ok? {
      assert forall row :: row in r.rows ==> row in t.rows;
    } else {
      assert r == t;
    }
  }

  /** A host edit of the registry, through `UriSchemes`. */
  function EditRegistry(s: State, op: TableOp): (r: State)
    requires Invariant(s)
    requires op.AddRow? ==> op.value != "" && IsTrimmed(op.value)
    ensures Invariant(r) && r.schemes.known == s.schemes.known
    ensures forall k :: k in s.schemes.known ==> k in r.schemes.rows
    ensures r == s.(schemes := r.schemes)
  {
    EditKeepsSchemesUsable(s.schemes, op);
    s.(schemes := Apply(s.schemes, op))
  }

  /** One host event. */
  function Step(s: State, e: Event): (r: State)
    requires Invariant(s) && Admissible(e)
    ensures Invariant(r) && r.schemes.known == s.schemes.known
    ensures forall k :: k in s.schemes.known ==> k in r.schemes.rows
  {
    match e
    case AssignCurrent(v) => SetText(s, v)
    case AssignSelectedId(id) => SelectById(s, id)
    case AssignSelectedValue(v) => SelectByValue(s, v)
    case ReadMessage => ReadSchemeErrorMessage(s).0
    case ReadSelection => ReadSelectedScheme(s)
    case EditSchemes(op) => EditRegistry(s, op)
  }

  /** A sequence of host events, in order. */
  function Run(s: State, es: seq<Event>): (r: State)
    requires Invariant(s) && AllAdmissible(es)
    decreases |es|
    ensures Invariant(r) && r.schemes.known == s.schemes.known
    ensures forall k :: k in s.schemes.known ==> k in r.schemes.rows
  {
    if es == [] then s
    else Run(Step(s, es[0]), es[1..])
  }

  /**
   * Whatever the host does to a freshly constructed object (`Construct`
   * yields a state meeting the requirement), the ten built-in schemes stay
   * registered, the URI is never treated as relative, a selected ID always has
   * a non-empty selected text, and the message the host reads is the one
   * derived from the current text.
   */
  lemma ReachableStates(s0: State, es: seq<Event>)
    requires Invariant(s0) && s0.schemes == Create() && AllAdmissible(es)
    ensures var s := Run(s0, es);
      && (forall i :: 0 <= i < |BuiltInSchemes| ==> Row(i, BuiltInSchemes[i]) in s.schemes.rows)
      && !s.isRelative
      && (s.selectedId.Some? <==> s.selectedValue.Some? && s.selectedValue.value != "")
      && EffectiveMessage(s) == DerivedMessage(s.current, false)
  {
    BuiltInsKnown(s0);
  }

  /** The constructed object records the ten built-in rows as its known rows. */
  lemma BuiltInsKnown(s: State)
    requires s.schemes == Create()
    ensures forall i :: 0 <= i < |BuiltInSchemes| ==> Row(i, BuiltInSchemes[i]) in s.schemes.known
  {
    var t := Create();
    assert forall i :: 0 <= i < |BuiltInSchemes| ==> Row(i, BuiltInSchemes[i]) == t.rows[i];
  }
}
